=== FILE: README.md ===
# jmfinance price-refresh core, modelled in Dafny

This project models the parts of the jmfinance portfolio tracker that decide
when an external price API is called and what is recorded when it is:

- **Usage ledger** (`UsageTracker`, `usage_tracker.dfy`): the append-only
  ledger of `ApiCall` records. It also models the advisor that reads the
  ledger:
  - today's total and remaining quota (the limit is 500);
  - the daily and per-minute rate-limit buckets;
  - per-symbol live-data indicators;
  - operation-cost estimates;
  - the seven-day history;
  - pruning of old records and the reset of today's records.
- **Stock quote client** (`StockService`, `stock_service.dfy`):
  - the global 12-second rate limiter;
  - the per-symbol quote cache, which expires at the last millisecond of the
    caching day;
  - the `getQuote` decision procedure (cache hit, fresh fetch, or failure
    with a stale fallback), where every path writes exactly one ledger
    record;
  - the sequential `getMultipleQuotes`;
  - cache clearing and cache status;
  - the connection test.
- **Crypto price client** (`CryptoService`, `crypto_service.dfy`):
  - the per-coin cache with a five-minute lifetime;
  - single-id lookups;
  - multi-id lookups, split into batches of at most 100 ids. Each batch is
    answered partly from the cache and partly by one request, whose body is
    spread over the missing ids.
  - the failure handler;
  - the cache-only read;
  - the connection test;
  - cache clearing.
- **Crypto notifications in the ledger** (`CryptoLedger`, `crypto_ledger.dfy`):
  - the record a crypto notification stores as the code is written, and the
    tracker's sums over it in JavaScript arithmetic (`undefined` and NaN);
  - the record the notification evidently means, and the ledger totals it
    keeps.
- **Portfolio helpers** (`PortfolioUtils`, `portfolio_utils.dfy`):
  - the deduplicating extractors of stock symbols and coin ids;
  - writing price results back into assets;
  - the "needs an update today" selection;
  - the per-asset freshness status.

Shared pieces:

- `Wrappers` (`wrappers.dfy`): `Option`, `Result`, string truthiness.
- `Calendar` (`calendar.dfy`): instants in milliseconds, `Day(t)`,
  `StartOfDay`, `EndOfDay`.
- `Seqs` (`seqs.dfy`): `Filter`, `IndexOf`, `Dedup` (the
  `indexOf(x) === index` filter), `Distinct`, `Flatten`.
- `ApiTypes` (`api_types.dfy`): `PriceUpdateResult`.

## How the model works

- Every operation is a pure function, or a method with a loop, over an
  explicit service state. The stock client's state is its cache, its
  `lastRequestTime` and the ledger. The crypto client's state is its cache
  and its usage notifications.
- The present instant is a parameter `now`, in milliseconds.
- The network is a function parameter. It maps the request, and the instant
  the request starts, to a response and a latency. So a waiting limiter or
  a slow fetch shows up as a later `doneAt` instant.
- The stock client's request has a 10-second timeout. A reply slower than
  10000 ms is received as a transport failure with the message
  `timeout of 10000ms exceeded`, at the moment the timeout elapses. The
  crypto client sets no timeout, so its latency is not cut off.
- A calendar date is the day number `Day(t) = t / 86400000`. Instants are
  taken to be on the local clock already.

## Quirks of the code the model keeps

- **Cost estimate for all stocks.** `estimateOperationCost('all')` costs 2.
  That is the stock count hard-coded in `calculateCostAnalysis`, whatever
  the portfolio holds.
- **Stock connection test.** `testConnection` for stocks calls
  `getQuote('AAPL')` without forcing a refresh. So a valid cache entry
  answers it without a request.
- **Crypto failure handler.** The handler of a failed crypto batch skips any
  id that already has a result anywhere in the results gathered so far, not
  only among this batch's results.
- **Pause after a quote.** `getMultipleQuotes` decides whether to pause after
  a symbol from the position of its *first* occurrence. With duplicate
  symbols, it can therefore pause after the last one.
- **Status versus selection.**
  - `getAssetUpdateStatus` reports `needsUpdate` for a non-fresh asset whose
    price source is absent.
  - `getAssetsNeedingUpdate` never selects such an asset.
  - `PortfolioUtils.StatusDivergesWithoutSource` states the disagreement.
- **Crypto notifications.** The crypto client passes four positional
  arguments to the tracker's `recordCall`, which takes one call object and
  spreads it. The stored record has a timestamp and nothing the tracker's
  sums read. `CryptoService` keeps the notifications as abstract
  `(success, fromCache)` events. `CryptoLedger` models the record as written
  and the corrected record (see Findings). A non-OK status or a missing coin
  notifies a failure twice: the throw's own notification and the catch's. So
  even with corrected records such a failure bills two units for one request
  (`CryptoLedger.GetPriceBill`).

## Model

| member | source | states |
|---|---|---|
| `UsageTracker.RecordCall` | src/services/apiUsageTracker.ts:67-74 | the ledger grows by exactly one record stamped with the current time; earlier records are unchanged; the new record carries the given call's fields |
| `UsageTracker.StampRoundTrip` | src/services/apiUsageTracker.ts:67-71 | stamping a call keeps every field and adds only the timestamp (stamp and unstamp are inverse) |
| `UsageTracker.Billed` | src/services/apiUsageTracker.ts:93-94 | exactly the records not served from the cache are billed; their costs never sum to more than the whole list's |
| `UsageTracker.SumCostBounds` | src/services/apiUsageTracker.ts:93-95 | every record's cost is at most the sum of the costs; the sum is 0 iff every cost is 0 |
| `UsageTracker.SumCostFilter` | src/services/apiUsageTracker.ts:93-95 | keeping only some records never raises the sum of the costs |
| `UsageTracker.TodaysCalls` | src/services/apiUsageTracker.ts:145-150 | a record is among today's calls iff its calendar date is today's; their costs never sum to more than the ledger's |
| `UsageTracker.ProviderCallsToday` | src/services/apiUsageTracker.ts:155-157 | a record is returned iff it is from today and from the given provider |
| `UsageTracker.ProvidersSplitToday` | src/services/apiUsageTracker.ts:155-157 | today's records of the two providers together number exactly today's records |
| `UsageTracker.TotalCallsToday` | src/services/apiUsageTracker.ts:93-95 | every non-cached record of today counts in full toward the total; the total is 0 iff none of them costs anything; it never exceeds the whole ledger's cost |
| `UsageTracker.RemainingCallsToday` | src/services/apiUsageTracker.ts:97-99 | the remaining quota never exceeds 500; it is 0 iff today's total reached 500; otherwise total plus remaining is 500 |
| `UsageTracker.RecordCallTotal` | src/services/apiUsageTracker.ts:93-95 | recording a call today raises today's total by its cost, or by nothing when it was served from the cache |
| `UsageTracker.NextScheduledUpdate` | src/services/apiUsageTracker.ts:135-140 | the next update is on the following calendar day at 09:30 |
| `UsageTracker.CalculateCostAnalysis` | src/services/apiUsageTracker.ts:119-130 | a test and a single refresh cost 1, a refresh of all stocks costs 2; the next scheduled update is tomorrow at 09:30 |
| `UsageTracker.TodaysStats` | src/services/apiUsageTracker.ts:88-114 | today's records; the total is today's billed total; limit 500 and the remaining-quota bounds; the cost analysis above; a reset time at the first instant of the next day, after now |
| `UsageTracker.DailyPercentage` | src/services/apiUsageTracker.ts:167 | the percentage times the limit equals the total times 100 (exact) |
| `UsageTracker.DailyLevel` | src/services/apiUsageTracker.ts:181 | critical iff above 90 percent (more than 450 calls); warning iff 376 to 450; safe iff at most 375 |
| `UsageTracker.MinuteLevel` | src/services/apiUsageTracker.ts:185 | critical iff at least 5 calls in the last minute; warning iff exactly 4; safe otherwise |
| `UsageTracker.CallsInLastMinute` | src/services/apiUsageTracker.ts:170-177 | every non-cached stock-provider record stamped strictly within the last minute counts in full; the count is 0 iff none of them costs anything; it never exceeds the whole ledger's cost |
| `UsageTracker.RecordCallMinute` | src/services/apiUsageTracker.ts:170-177 | a new record adds its cost to the per-minute count iff it is a non-cached stock-provider call stamped strictly within the last minute |
| `UsageTracker.GetRateLimitStatus` | src/services/apiUsageTracker.ts:162-189 | the daily percentage is today's total over the limit; the minute count is the last minute's count of the ledger; the daily and minute buckets follow the thresholds above |
| `UsageTracker.IndicatorsFrom` | src/services/apiUsageTracker.ts:207-218 | folding the records yields one live indicator per non-empty symbol, with the latest timestamp of that symbol's records and the provider of a record made at that time |
| `UsageTracker.AbsorbSummarises` | src/services/apiUsageTracker.ts:208-216 | folding one more record keeps the indicators a faithful summary of the longer record list |
| `UsageTracker.LiveDataIndicators` | src/services/apiUsageTracker.ts:194-221 | a symbol has an indicator iff it is non-empty and some record today with that symbol was successful and not cached; its time is the latest such record's; it is always live |
| `UsageTracker.EstimateOperationCost` | src/services/apiUsageTracker.ts:226-260 | the test and single operations cost 1 and refreshing all stocks costs 2; an operation is affordable iff performing it keeps today's total within 500 |
| `UsageTracker.CleanOldData` | src/services/apiUsageTracker.ts:265-274 | a record is kept iff it is stamped after seven days before now |
| `UsageTracker.CleanOldDataAbsorbs` | src/services/apiUsageTracker.ts:269-271 | pruning at an earlier time and then a later time equals pruning once at the later time |
| `UsageTracker.CleanOldDataIdempotent` | src/services/apiUsageTracker.ts:265-274 | pruning twice at the same time equals pruning once |
| `UsageTracker.CleanOldDataInOrder` | src/services/apiUsageTracker.ts:269-271 | pruning goes record by record: it distributes over concatenation and keeps a single record iff it is under seven days old, so survivors keep their order and multiplicity |
| `UsageTracker.InitialLedger` | src/services/apiUsageTracker.ts:59-62 | a record is in the constructed ledger iff it was stored and is under seven days old; nothing stored gives an empty ledger |
| `UsageTracker.InitialLedgerInOrder` | src/services/apiUsageTracker.ts:59-62 | construction goes record by record, keeping order and multiplicity, and is the same as pruning the stored records: pruning again changes nothing |
| `UsageTracker.ResetTodaysUsage` | src/services/apiUsageTracker.ts:313-319 | a record survives the reset iff it is not from today |
| `UsageTracker.ResetInOrder` | src/services/apiUsageTracker.ts:313-319 | the reset goes record by record: it distributes over concatenation and keeps a single record iff it is not from today, so survivors keep their order and multiplicity |
| `UsageTracker.ResetPartitionsLedger` | src/services/apiUsageTracker.ts:313-319 | the reset and today's calls together are the ledger (as multisets); after the reset nothing is from today and today's total is 0 |
| `UsageTracker.ResetKeepsOtherDays` | src/services/apiUsageTracker.ts:313-319 | the reset leaves every other day's total unchanged |
| `UsageTracker.DayTotalToday` | src/services/apiUsageTracker.ts:332-338 | the history's total for today equals today's total in the statistics |
| `UsageTracker.CleanKeepsHistory` | src/services/apiUsageTracker.ts:265-271 | pruning at now changes none of the seven history days' totals |
| `UsageTracker.CleanKeepsToday` | src/services/apiUsageTracker.ts:265-271 | pruning at now leaves today's total unchanged |
| `UsageTracker.UsageHistory` | src/services/apiUsageTracker.ts:324-347 | exactly seven points for consecutive days, oldest first and today last; each point is that day's total of non-cached costs |
| `Calendar.EndOfDay` | src/services/alphaVantageService.ts:69-71 | the expiry instant lies on the caching day, at or after the caching instant, and the next millisecond is the next day |
| `StockService.InitialState` | src/services/alphaVantageService.ts:13-18 | at process start the ledger is the given one, the limiter's marker is 0, and no symbol has a valid entry |
| `StockService.Received` | src/services/alphaVantageService.ts:136-143 | a reply that arrives within 10000 ms is received as it is; a slower one is a transport failure with the timeout message |
| `StockService.Elapsed` | src/services/alphaVantageService.ts:136-143 | the client waits the reply's latency, but never more than 10000 ms |
| `StockService.RateLimit` | src/services/alphaVantageService.ts:34-45 | the request starts no earlier than now and at least 12000 ms after the previous start; it is either now or exactly 12000 ms after the previous start |
| `StockService.ConsecutiveFetchesSpaced` | src/services/alphaVantageService.ts:34-45 | two lookups in sequence that both fetch start their fetches at least 12000 ms apart |
| `StockService.FirstLookupFetches` | src/services/alphaVantageService.ts:17-45 | the first lookup after process start always fetches, at now, or at 12000 when now is earlier |
| `StockService.CachePrice` | src/services/alphaVantageService.ts:68-78 | the symbol's entry is overwritten with the quote, cached now and expiring at 23:59:59.999 of that day; other entries are untouched |
| `StockService.CachedQuoteValidity` | src/services/alphaVantageService.ts:50-55 | a freshly cached quote is valid exactly from the start of its caching day until just before the day's last millisecond |
| `StockService.CacheValidWindow` | src/services/alphaVantageService.ts:50-56 | in a cache written by `cachePrice`, a symbol's entry is valid iff now lies between the start of its caching day and, excluding, that day's last millisecond |
| `StockService.InvalidStaysInvalid` | src/services/alphaVantageService.ts:50-55 | an entry that is invalid stays invalid as time advances |
| `StockService.GetCachedPrice` | src/services/alphaVantageService.ts:60-63 | a quote is returned iff the symbol has an entry, expired or not, and it is that entry's quote |
| `StockService.CheckResponse` | src/services/alphaVantageService.ts:145-156 | a response yields a quote iff it is a reply with no error message, no note and a quote present; that quote is returned |
| `StockService.GetQuote` | src/services/alphaVantageService.ts:103-213 | exactly one ledger record per lookup. A cache hit costs 0 and leaves cache and limiter alone. A fetch starts at the limiter's instant, returns after the reply's latency capped at the timeout, and costs 1. It succeeds iff the received reply yields a quote; that quote is cached at the return instant. A failure leaves the cache and reports the error, prefixed and with the cached price when the symbol has any entry. The result's last update is the cached quote's on a hit, the new quote's on success, and the cached entry's (if any) on failure; a hit is recorded at the call instant and returns at once |
| `StockService.Attempt` | src/services/alphaVantageService.ts:104-211 | a fetch happens iff refresh is forced or the entry is not valid; without a fetch the limiter and clock are untouched; a fetch starts at the limiter's instant, moves the marker there, and returns after the capped latency |
| `StockService.SameDayLookupHitsCache` | src/services/alphaVantageService.ts:106-128 | after a successful fetch, a lookup later the same day is answered from the cache with the fetched price |
| `StockService.GetMultipleQuotes` | src/services/alphaVantageService.ts:218-235 | one result per symbol, in input order; one ledger record per symbol, in input order, after the untouched earlier records; the run is a chain of single lookups: lookup k is `getQuote` at the state and instant the previous one left, and the next starts after its return plus one second unless the symbol's first occurrence is last |
| `StockService.NextLookup` | src/services/alphaVantageService.ts:223-232 | one iteration: the result and state of `getQuote` for symbol k, one more ledger record for that symbol, and the next start no earlier than this one |
| `StockService.ClearCache` | src/services/alphaVantageService.ts:268-276 | a non-empty symbol removes only that entry; no symbol or the empty string empties the cache; ledger and limiter untouched |
| `StockService.GetCacheStatus` | src/services/alphaVantageService.ts:281-287 | one status per cached symbol, with its caching time and whether it is valid now |
| `StockService.TestConnection` | src/services/alphaVantageService.ts:292-300 | one lookup of AAPL, recording one ledger entry; the test succeeds iff that record is a success. Refresh is not forced: a valid cache entry answers it, successfully, with a cached record, leaving the cache and limiter alone. Otherwise it fetches at the limiter's instant and succeeds iff the received reply yields a quote |
| `CryptoService.CacheWrite` | src/services/coinGeckoService.ts:108-113 | the written entry is valid exactly until five minutes after the write; other entries untouched |
| `CryptoService.ValidInWindow` | src/services/coinGeckoService.ts:51-55 | in a cache written by the service, a coin's entry is valid iff it exists and now is before five minutes after it was cached |
| `CryptoService.GetPrice` | src/services/coinGeckoService.ts:60-137 | with the cache on, a valid entry answers without a request. A fetched price succeeds iff the reply is OK and holds the coin, and it is cached only with the cache on. Failures carry no price and no stale fallback. A hit returns at once, a fetch after the reply's latency. A non-OK status fails with `CoinGecko API error: ` and the status and notifies two failures; a missing coin fails naming it and notifies two; a transport error fails with its message and notifies one |
| `CryptoService.CachedCoinLifetime` | src/services/coinGeckoService.ts:60-115 | a price fetched and cached is served from the cache iff less than five minutes have passed |
| `CryptoService.Batches` | src/services/coinGeckoService.ts:149-155 | the batches concatenate to the input; each has 1 to 100 ids and all but the last exactly 100; no batches iff no ids |
| `CryptoService.HitIds` | src/services/coinGeckoService.ts:164-179 | an id is a hit iff it is in the batch and has a valid entry |
| `CryptoService.MissIds` | src/services/coinGeckoService.ts:164-182 | an id is a miss iff it is in the batch and has no valid entry |
| `CryptoService.HitsFor` | src/services/coinGeckoService.ts:165-175 | one cache-hit result per id, in order, each the id's cached price |
| `CryptoService.SplitBatch` | src/services/coinGeckoService.ts:164-182 | hits and misses cover the batch and only the batch; each hit is the cached result of a valid entry; they are disjoint when the batch is duplicate-free; without the cache everything is a miss |
| `CryptoService.HitEvents` | src/services/coinGeckoService.ts:184-187 | one cache-hit notification iff the cache answered any id of the batch |
| `CryptoService.BodyResult` | src/services/coinGeckoService.ts:207-242 | an id present in the body gets a fresh price; an absent id gets a failure naming it |
| `CryptoService.BodyResults` | src/services/coinGeckoService.ts:207-243 | one result per requested id, in request order |
| `CryptoService.CacheBody` | src/services/coinGeckoService.ts:218-225 | exactly the requested ids present in the body are cached with the reply time; other entries untouched |
| `CryptoService.FailRemaining` | src/services/coinGeckoService.ts:257-267 | earlier results untouched; every added result is a failure carrying the handler's message and no price |
| `CryptoService.FailRemainingIds` | src/services/coinGeckoService.ts:257-267 | afterwards an id has a result iff it had one or is in the batch; no id gains a second result |
| `CryptoService.FailRemainingDistinct` | src/services/coinGeckoService.ts:257-267 | the failure handler never gives an id a second result |
| `CryptoService.Answer` | src/services/coinGeckoService.ts:196-267 | an OK reply appends the body's results for the missing ids and, with the cache on, caches what the body holds; a failed reply leaves the cache and gives the failure handler's results; unanswered missing ids are answered exactly once; a success has a price and a time, a failure an error and no price; one success notification iff OK, two failures on a non-OK status, one on a transport error |
| `CryptoService.AfterSplit` | src/services/coinGeckoService.ts:184-251 | hits come first in the results; with no misses nothing is requested; otherwise exactly one request's notifications follow the hit notification |
| `CryptoService.AfterSplitReply` | src/services/coinGeckoService.ts:184-251 | when ids are missing, the batch returns after the one request's latency, and its results are the hits followed by the reply's results |
| `CryptoService.ShapedBody` | src/services/coinGeckoService.ts:207-243 | every result of an OK body has a price and a time, or an error and no price |
| `CryptoService.ShapedFailed` | src/services/coinGeckoService.ts:257-267 | every result of the failure handler has an error and no price |
| `CryptoService.ProcessBatch` | src/services/coinGeckoService.ts:157-268 | a batch answers only its own ids, and each unanswered distinct id exactly once; every result is a well-formed success or failure; at most one hit and one request's notifications; a non-empty batch notifies something |
| `CryptoService.ProcessBatchReply` | src/services/coinGeckoService.ts:157-268 | a batch's results are its cache hits, then, when ids were missing, the reply's results for them |
| `CryptoService.ProcessBatches` | src/services/coinGeckoService.ts:157-269 | the batch loop answers only the ids of the batches, and for distinct unanswered ids each exactly once; every result is a well-formed success or failure |
| `CryptoService.GetMultiplePrices` | src/services/coinGeckoService.ts:142-272 | empty input gives no results and no notifications, any other input notifies something; every result is for an input id; for distinct ids each id gets exactly one result, whatever the network does; a success has a price and a time and comes from the cache only with the cache on, a failure has an error and no price; no cache change without the cache |
| `CryptoService.OneBatchPrices` | src/services/coinGeckoService.ts:142-272 | up to 100 ids: the results are the cache hits, then, when ids were missing, the one reply's results for them |
| `CryptoService.GetCachedPricesOnly` | src/services/coinGeckoService.ts:277-296 | exactly the input ids with a valid entry, in input order, each answered from the cache |
| `CryptoService.CachedOnlyAgreesWithGetPrice` | src/services/coinGeckoService.ts:281-292 | each cache-only answer equals what a cached single lookup returns |
| `CryptoService.TestConnection` | src/services/coinGeckoService.ts:301-323 | an uncached lookup of bitcoin, which leaves the cache alone; succeeds iff the reply is OK and holds bitcoin, notifying one success. A non-OK status or a missing coin notifies two failures and reports the status or missing-coin message; a transport error notifies one and reports its message |
| `CryptoService.ClearCache` | src/services/coinGeckoService.ts:328-332 | the cache is emptied; notifications untouched |
| `CryptoLedger.Stored` | src/services/apiUsageTracker.ts:67-74 | a call recorded through the typed interface is stored with its time, flag and cost |
| `CryptoLedger.CryptoRecordAsWritten` | src/services/coinGeckoService.ts:25-29 | the record a crypto notification stores has a timestamp and no provider, cache flag or cost |
| `CryptoLedger.JsAdd` | src/services/apiUsageTracker.ts:93-95 | adding to the running sum gives NaN iff the sum is NaN or the cost is missing; otherwise the plain sum |
| `CryptoLedger.JsRemaining` | src/services/apiUsageTracker.ts:97-99 | the remaining quota is NaN iff the total is; otherwise the limit minus the total, floored at 0 |
| `CryptoLedger.JsDailyLevel` | src/services/apiUsageTracker.ts:181 | a NaN total reads as safe; a whole-number total gets the model's daily bucket |
| `CryptoLedger.JsTotalTodayAppend` | src/services/apiUsageTracker.ts:93-95 | one more stored record changes today's sum by that record alone |
| `CryptoLedger.NaNPersists` | src/services/apiUsageTracker.ts:93-95 | once today's sum is NaN, later records keep it NaN |
| `CryptoLedger.CryptoNotificationPoisonsDay` | src/services/coinGeckoService.ts:25-29 | after one crypto notification today, as written, today's total is NaN, the daily status is safe, and no cost is affordable |
| `CryptoLedger.CryptoNotificationExample` | src/services/coinGeckoService.ts:25-29 | an empty ledger plus one crypto notification gives a NaN total where the true total is 0 |
| `CryptoLedger.TotalCallsTodayAppend` | src/services/apiUsageTracker.ts:93-95 | one more record in the model's ledger changes today's total by its cost iff it is today's and not cached |
| `CryptoLedger.RecordCallTotalAt` | src/services/apiUsageTracker.ts:67-95 | recording a call at any instant changes today's total by its cost iff it is today's and not cached |
| `CryptoLedger.StoredTotalAgrees` | src/services/apiUsageTracker.ts:93-95 | for fully written records, the JavaScript sum is a number and equals the model's total |
| `CryptoLedger.CryptoCall` | src/services/coinGeckoService.ts:25-29 | the corrected record: the crypto provider, the outcome and cache flag of the notification, cost 1 for a request and 0 for a cache hit |
| `CryptoLedger.RecordEvents` | src/services/coinGeckoService.ts:25-29 | a run's notifications are appended in order after the untouched ledger, each the corrected record stamped at the given instant |
| `CryptoLedger.CryptoCallKeepsTotals` | src/services/coinGeckoService.ts:25-29 | after a corrected notification the stored sum stays a number: today's total before it plus its own cost |
| `CryptoLedger.CryptoCallTotal` | src/services/coinGeckoService.ts:25-29 | a corrected notification raises today's total by its own cost: 1 for a request, 0 for a cache hit |
| `CryptoLedger.CryptoCallKeepsMinute` | src/services/coinGeckoService.ts:25-29 | a corrected notification leaves the stock provider's per-minute count alone |
| `CryptoLedger.RecordEventsTotal` | src/services/coinGeckoService.ts:25-29 | a run's corrected notifications raise today's total by one per notification not served from the cache, and nothing per cache hit |
| `CryptoLedger.GetPriceBill` | src/services/coinGeckoService.ts:60-137 | with corrected records, one `getPrice` bills 0 for a cache hit, 1 for a fresh price or a transport error, and 2 for a non-OK status or a missing coin |
| `CryptoLedger.RequestsOfEvents` | src/services/coinGeckoService.ts:67-128 | a hit notification bills 0, a fetched or failed one 1, a doubled failure 2 |
| `Seqs.Dedup` | src/lib/portfolioUtils.ts:11 | every element once, nothing else, ordered by first occurrence |
| `PortfolioUtils.Keys` | src/lib/portfolioUtils.ts:8-10 | a key is listed iff some asset yields it |
| `PortfolioUtils.KeysInOrder` | src/lib/portfolioUtils.ts:8-10 | the keys are taken asset by asset: they distribute over concatenation and a single asset gives its key iff it has one, so keys keep the assets' order and multiplicity |
| `PortfolioUtils.GetStockSymbols` | src/lib/portfolioUtils.ts:7-12 | duplicate-free; a symbol is listed iff some Alpha Vantage asset has it non-empty, that is iff it is among the assets' keys; ordered by first occurrence among the keys |
| `PortfolioUtils.GetCryptoCoinIds` | src/lib/portfolioUtils.ts:17-22 | duplicate-free; an id is listed iff some CoinGecko asset has it non-empty, that is iff it is among the assets' keys; ordered by first occurrence among the keys |
| `PortfolioUtils.DedupOfDistinct` | src/lib/portfolioUtils.ts:11 | removing duplicates from a duplicate-free list changes nothing |
| `PortfolioUtils.StockSymbolsStable` | src/lib/portfolioUtils.ts:7-12 | deduplicating the symbol list again changes nothing |
| `PortfolioUtils.UpdateAsset` | src/lib/portfolioUtils.ts:32-57 | without a successful, non-zero price the asset is unchanged; with one, the share price, amount (shares times price), last update and date change, and nothing else |
| `PortfolioUtils.UpdatePortfolioWithPrices` | src/lib/portfolioUtils.ts:27-59 | same length and order; each asset updated as above |
| `PortfolioUtils.UpdateIdempotent` | src/lib/portfolioUtils.ts:27-59 | applying the same results twice equals applying them once |
| `PortfolioUtils.UpdateKeepsRequests` | src/lib/portfolioUtils.ts:27-59 | price updates never change the requested symbols or coin ids |
| `PortfolioUtils.GetAssetsNeedingUpdate` | src/lib/portfolioUtils.ts:76-87 | an asset is selected iff it is service-priced and never updated or last updated on another day |
| `PortfolioUtils.NeedingUpdateIdempotent` | src/lib/portfolioUtils.ts:76-87 | selecting again from the selection changes nothing |
| `PortfolioUtils.NeedingUpdatePartition` | src/lib/portfolioUtils.ts:76-87 | the selection and the rest together are the portfolio (as multisets) |
| `PortfolioUtils.UpdatedTodayNotDue` | src/lib/portfolioUtils.ts:79-86 | an asset written back with a dated result is still due iff that date is not today |
| `PortfolioUtils.GetAssetUpdateStatus` | src/lib/portfolioUtils.ts:111-133 | never iff no last update; fresh iff last updated today; an update is needed iff not fresh and not manual |
| `PortfolioUtils.StatusAgreesWithSelection` | src/lib/portfolioUtils.ts:111-133 | for a service-priced asset the status asks for an update iff the selection selects it |
| `PortfolioUtils.StatusDivergesWithoutSource` | src/lib/portfolioUtils.ts:116-121 | for an asset without a price source the status asks for an update whenever not fresh, yet the selection never selects it |

## Left out

- Persistence: `localStorage` reads, writes and JSON. The ledger is loaded as a value (`InitialLedger`); the crypto cache is part of the state; write failures are no-ops.
- Logging, URL building, request parameters and API keys: none of them affect a result.
- Floating point: prices, amounts and changes are whole numbers. `processQuoteResponse`'s parsing is reduced to a quote or an unprocessable reply. `recalculatePortfolioPercentages`, `calculatePortfolioMetrics`, `formatCurrency` and `formatPercentage` are display arithmetic on floats.
- `getHistoricalData`: a raw pass-through of a second endpoint, with its own 15-second timeout, not used by the refresh decisions.
- Real waiting and concurrency: sleeps become later instants; overlapping asynchronous callers racing on `lastRequestTime` are not modelled.
- Time zones and daylight saving: `toDateString`, `isToday`, `setHours` and `addDays` become `Day`, `StartOfDay` and `EndOfDay` on a uniform 24-hour day.
- Display strings: the history's `MM/dd` label is its day number, the status's formatted last update is its instant, and `updatePortfolioWithPrices`' date label is a parameter.
- The description text of operation-cost estimates, the crypto connection test's formatted price message, and Unicode upper-casing of coin symbols (ASCII letters only).
- The lazy import of the tracker by the crypto client: the tracker is taken to be loaded. Before it loads, notifications are dropped.
- `getCacheStatus` returns a list in insertion order; the model returns a map from symbol to status.
- UI components, hooks, the demo data set, the progress script and the live smoke test.
- UsageTracker.LiveDataIndicators: states that the provider is that of some record at the latest time, not specifically the earliest such record (the source keeps the first one because it compares with strict `>`).
- CryptoService.GetMultiplePrices: for input with duplicate ids it only states that every result is for an input id and well-formed.
- CryptoService.GetMultiplePrices: the exact results (hits, then the reply's or the failure handler's results) are stated per batch by `ProcessBatchReply` and, for up to 100 ids, by `OneBatchPrices`; across several batches the contract states each result's shape, not its value.
- UsageTracker.DailyPercentage: an exact rational where the source divides in floating point. For 7 calls the source computes 1.4000000000000001 and the model 1.4. The daily buckets agree for every whole-number total.
- UsageTracker.TodaysStats, UsageTracker.GetRateLimitStatus, UsageTracker.EstimateOperationCost, UsageTracker.UsageHistory: stated for ledgers of fully written records. A day with a crypto notification, as the code writes it, is covered by `CryptoLedger` (see Findings).
- CryptoLedger.CryptoNotificationPoisonsDay: states the NaN for today's total, the daily status and affordability. The same NaN in that day's `getUsageHistory` point, and its persistence for seven days, is not restated.
- CryptoService.TestConnection: states the failure messages, not the success message, whose text embeds a locale-formatted price.

## Findings

| source | as written | input that shows it | evidently intended | confidence | as-written member | corrected member |
|---|---|---|---|---|---|---|
| src/services/coinGeckoService.ts:25-29 | `recordApiCall` calls `recordCall('coingecko', endpoint, success, fromCache)`, but `recordCall` takes one call object and spreads it (apiUsageTracker.ts:67-74). The stored record has a timestamp and no provider, `fromCache` or `cost`. `!undefined` bills it, and `sum + undefined` makes today's total NaN | an empty ledger, then one crypto price lookup today: `totalCallsToday` is NaN instead of 0, the daily status reads safe, and no operation is affordable | record `{provider: 'coingecko', endpoint, success, fromCache, cost}`, with cost 1 per request (the provider's `callsPerQuote`) and 0 for a cache hit | high that the total becomes NaN; the cost of 1 per request is inferred; not executed | `CryptoLedger.CryptoNotificationPoisonsDay` | `CryptoLedger.CryptoCallKeepsTotals` |

=== FILE: api_types.dfy ===
/** Result shapes shared by the price clients and the portfolio helpers. */
module ApiTypes {
  import opened Wrappers

  /**
   * `PriceUpdateResult`. Prices are whole numbers here. An absent `fromCache`
   * (the pure-failure result) is represented by `false`, which is how every
   * reader of the field treats it.
   */
  datatype PriceUpdateResult = PriceUpdateResult(
    success: bool,
    symbol: string,
    price: Option<int>,
    error: Option<string>,
    lastUpdated: Option<int>,
    fromCache: bool)
}

=== FILE: calendar.dfy ===
/**
 * Instants are integers counting milliseconds on the local clock. The source
 * compares calendar dates with `toDateString()` / `isToday`; here a date is the
 * day number `Day(t)`, and the day starting at `StartOfDay(d)` lasts `MsPerDay`.
 */
module Calendar {

  const MsPerSecond: int := 1000
  const MsPerMinute: int := 60 * MsPerSecond
  const MsPerHour: int := 60 * MsPerMinute
  const MsPerDay: int := 24 * MsPerHour

  /** The first millisecond (00:00:00.000) of day `d`. */
  function StartOfDay(d: int): int {
    d * MsPerDay
  }

  /** The calendar day containing instant `t`. */
  function Day(t: int): (d: int)
    ensures StartOfDay(d) <= t < StartOfDay(d + 1)
  {
    t / MsPerDay
  }

  /** The last millisecond (23:59:59.999) of the day containing `t`. */
  function EndOfDay(t: int): (e: int)
    ensures Day(e) == Day(t)
    ensures t <= e
    ensures Day(e + 1) == Day(t) + 1
  {
    DayOfInstant(StartOfDay(Day(t) + 1) - 1, Day(t));
    DayOfInstant(StartOfDay(Day(t) + 1), Day(t) + 1);
    StartOfDay(Day(t) + 1) - 1
  }

  /** Every instant of the interval of day `d` lies on day `d`. */
  lemma DayOfInstant(t: int, d: int)
    requires StartOfDay(d) <= t < StartOfDay(d + 1)
    ensures Day(t) == d
  {
  }

  /** Dates never run backwards as the clock advances. */
  lemma DayMonotone(t1: int, t2: int)
    requires t1 <= t2
    ensures Day(t1) <= Day(t2)
  {
  }
}

=== FILE: crypto_ledger.dfy ===
/**
 * How the crypto client's usage notifications reach the shared ledger.
 *
 * The client passes its arguments to the tracker's `recordCall` positionally,
 * but `recordCall` takes one call object and spreads it. Spreading the string
 * 'coingecko' yields only its character-index keys, so the stored record has
 * a timestamp and no provider, flag or cost: every such field reads as
 * `undefined`. The first half of this module models the tracker's sums over
 * such records with JavaScript's arithmetic, where `undefined` turns a sum
 * into NaN and every comparison with NaN is false. The second half is the
 * record the client evidently meant to write, and what the tracker then
 * reports.
 */
module CryptoLedger {
  import opened Wrappers
  import opened Calendar
  import opened Seqs
  import opened UsageTracker
  import opened CryptoService

  /** A JavaScript number as the tracker's sums produce it: a whole count, or NaN. */
  datatype JsNumber = Num(n: int) | NaN

  /**
   * A stored record as JavaScript reads it: the timestamp is always present,
   * the other fields the sums read are `undefined` (`None`) when the object
   * lacks them.
   */
  datatype StoredCall = StoredCall(timestamp: int, provider: Option<Provider>, fromCache: Option<bool>, cost: Option<nat>)

  /** A record written through the tracker's typed interface: every field present. */
  function Stored(c: ApiCall): (s: StoredCall)
    ensures s.timestamp == c.timestamp && s.cost == Some(c.cost) && s.fromCache == Some(c.fromCache)
  {
    StoredCall(c.timestamp, Some(c.provider), Some(c.fromCache), Some(c.cost))
  }

  /** The ledger as stored: every record of the model, in order. */
  function StoredLedger(ledger: Ledger): (s: seq<StoredCall>)
    ensures |s| == |ledger| && forall i :: 0 <= i < |ledger| ==> s[i] == Stored(ledger[i])
  {
    seq(|ledger|, i requires 0 <= i < |ledger| => Stored(ledger[i]))
  }

  /** The record a crypto notification writes as the code stands: a timestamp and nothing else. */
  function CryptoRecordAsWritten(t: int): (s: StoredCall)
    ensures s.timestamp == t && s.provider.None? && s.fromCache.None? && s.cost.None?
  {
    StoredCall(t, None, None, None)
  }

  /** `sum + call.cost`: adding `undefined`, or adding to NaN, gives NaN. */
  function JsAdd(sum: JsNumber, cost: Option<nat>): (r: JsNumber)
    ensures r.NaN? <==> sum.NaN? || cost.None?
    ensures r.Num? ==> r.n == sum.n + cost.value
  {
    match sum
    case NaN => NaN
    case Num(n) => if cost.Some? then Num(n + cost.value) else NaN
  }

  /** `!call.fromCache`: `!undefined` is true, so a record without the flag is billed. */
  predicate JsBilled(c: StoredCall) {
    c.fromCache != Some(true)
  }

  /**
   * `getTodaysStats().totalCallsToday` over the stored records: today's
   * records, the billed ones, summed from 0 left to right by `reduce`.
   */
  function JsTotalToday(calls: seq<StoredCall>, now: int): JsNumber {
    if |calls| == 0 then Num(0)
    else
      var prev := JsTotalToday(calls[..|calls| - 1], now);
      var c := calls[|calls| - 1];
      if Day(c.timestamp) == Day(now) && JsBilled(c) then JsAdd(prev, c.cost) else prev
  }

  /** `Math.max(0, dailyLimit - total)`: NaN when the total is NaN. */
  function JsRemaining(total: JsNumber): (r: JsNumber)
    ensures r.NaN? <==> total.NaN?
    ensures total.Num? ==> r.n == if DailyLimit - total.n > 0 then DailyLimit - total.n else 0
  {
    match total
    case NaN => NaN
    case Num(n) => Num(if DailyLimit - n > 0 then DailyLimit - n else 0)
  }

  /** The daily bucket: both comparisons with NaN are false, so a NaN total reads as `safe`. */
  function JsDailyLevel(total: JsNumber): (l: Level)
    ensures total.NaN? ==> l == Safe
    ensures total.Num? && total.n >= 0 ==> l == DailyLevel(total.n)
  {
    match total
    case NaN => Safe
    case Num(n) => if n * 100 > 90 * DailyLimit then Critical else if n * 100 > 75 * DailyLimit then Warning else Safe
  }

  /** `cost <= remainingCallsToday`: false against NaN. */
  predicate JsAffordable(cost: nat, remaining: JsNumber) {
    remaining.Num? && cost <= remaining.n
  }

  /** Adding a record to the end of the stored ledger updates today's sum by that record alone. */
  lemma JsTotalTodayAppend(calls: seq<StoredCall>, c: StoredCall, now: int)
    ensures JsTotalToday(calls + [c], now)
            == if Day(c.timestamp) == Day(now) && JsBilled(c) then JsAdd(JsTotalToday(calls, now), c.cost)
               else JsTotalToday(calls, now)
  {
    assert (calls + [c])[..|calls|] == calls;
  }

  /** Once today's sum is NaN it stays NaN, whatever is recorded after. */
  lemma {:induction false} NaNPersists(calls: seq<StoredCall>, more: seq<StoredCall>, now: int)
    requires JsTotalToday(calls, now) == NaN
    ensures JsTotalToday(calls + more, now) == NaN
    decreases |more|
  {
    if |more| > 0 {
      var init := more[..|more| - 1];
      NaNPersists(calls, init, now);
      assert calls + more == (calls + init) + [more[|more| - 1]];
      JsTotalTodayAppend(calls + init, more[|more| - 1], now);
    } else {
      assert calls + more == calls;
    }
  }

  /**
   * One crypto notification today, as written, and every later reading of
   * the day is corrupted: the total is NaN, the daily status reads `safe`, and
   * no operation is affordable, however little has really been spent.
   */
  lemma CryptoNotificationPoisonsDay(calls: seq<StoredCall>, t: int, more: seq<StoredCall>, now: int)
    requires Day(t) == Day(now)
    ensures JsTotalToday(calls + [CryptoRecordAsWritten(t)] + more, now) == NaN
    ensures JsDailyLevel(JsTotalToday(calls + [CryptoRecordAsWritten(t)] + more, now)) == Safe
    ensures forall cost: nat :: !JsAffordable(cost, JsRemaining(JsTotalToday(calls + [CryptoRecordAsWritten(t)] + more, now)))
  {
    JsTotalTodayAppend(calls, CryptoRecordAsWritten(t), now);
    NaNPersists(calls + [CryptoRecordAsWritten(t)], more, now);
  }

  /** A concrete instance: an empty ledger, one crypto notification, and today's total is NaN rather than 0. */
  lemma CryptoNotificationExample()
    ensures JsTotalToday([CryptoRecordAsWritten(0)], 0) == NaN
    ensures TotalCallsToday([], 0) == 0
  {
    JsTotalTodayAppend([], CryptoRecordAsWritten(0), 0);
    assert [] + [CryptoRecordAsWritten(0)] == [CryptoRecordAsWritten(0)];
  }

  /** Adding a record to the end of the model's ledger updates today's total by that record alone. */
  lemma TotalCallsTodayAppend(ledger: Ledger, c: ApiCall, now: int)
    ensures TotalCallsToday(ledger + [c], now)
            == TotalCallsToday(ledger, now) + (if Day(c.timestamp) == Day(now) && !c.fromCache then c.cost else 0)
  {
    var info := Unstamp(c);
    StampRoundTrip(info, c);
    assert RecordCall(ledger, info, c.timestamp) == ledger + [c];
    RecordCallTotalAt(ledger, info, c.timestamp, now);
  }

  /** Recording a call at any instant changes today's total by its cost exactly when it is today's and billed. */
  lemma RecordCallTotalAt(ledger: Ledger, info: CallInfo, t: int, now: int)
    ensures TotalCallsToday(RecordCall(ledger, info, t), now)
            == TotalCallsToday(ledger, now) + (if Day(t) == Day(now) && !info.fromCache then info.cost else 0)
  {
    var c := Stamp(info, t);
    var isToday := (x: ApiCall) => Day(x.timestamp) == Day(now);
    var notCached := (x: ApiCall) => !x.fromCache;
    FilterAppend(ledger, [c], isToday);
    FilterAppend(TodaysCalls(ledger, now), Filter([c], isToday), notCached);
    SumCostAppend(Billed(TodaysCalls(ledger, now)), Filter(Filter([c], isToday), notCached));
  }

  /** Records written with every field present sum to the model's total: the JavaScript sum agrees with it. */
  lemma {:induction false} StoredTotalAgrees(ledger: Ledger, now: int)
    ensures JsTotalToday(StoredLedger(ledger), now) == Num(TotalCallsToday(ledger, now))
    decreases |ledger|
  {
    if |ledger| > 0 {
      var init := ledger[..|ledger| - 1];
      var c := ledger[|ledger| - 1];
      StoredTotalAgrees(init, now);
      LastSplit(ledger);
      StoredLedgerAppend(init, c);
      JsTotalTodayAppend(StoredLedger(init), Stored(c), now);
      TotalCallsTodayAppend(init, c, now);
      StepAgrees(JsTotalToday(StoredLedger(init), now), TotalCallsToday(init, now), c, now);
    }
  }

  /** One stored record moves the JavaScript sum and the model's total by the same amount. */
  lemma StepAgrees(prev: JsNumber, total: nat, c: ApiCall, now: int)
    requires prev == Num(total)
    ensures (if Day(Stored(c).timestamp) == Day(now) && JsBilled(Stored(c)) then JsAdd(prev, Stored(c).cost) else prev)
            == Num(total + (if Day(c.timestamp) == Day(now) && !c.fromCache then c.cost else 0))
  {
  }

  /** A non-empty sequence is its front followed by its last element. */
  lemma LastSplit<T>(s: seq<T>)
    requires |s| > 0
    ensures s == s[..|s| - 1] + [s[|s| - 1]]
  {
  }

  /** Storing a ledger with one more record stores that record last. */
  lemma StoredLedgerAppend(ledger: Ledger, c: ApiCall)
    ensures StoredLedger(ledger + [c]) == StoredLedger(ledger) + [Stored(c)]
  {
  }

  /**
   * The record a crypto notification evidently means: the crypto provider,
   * its endpoint, the outcome, and one unit of cost for a request (none for a
   * cache hit), as the stock client records its own calls.
   */
  function CryptoCall(e: UsageEvent): (info: CallInfo)
    ensures info.provider == CoinGecko && info.symbol.None?
    ensures info.success == e.success && info.fromCache == e.fromCache
    ensures info.cost == if e.fromCache then 0 else 1
  {
    CallInfo(CoinGecko, "coingecko_simple_price", None, e.success, e.fromCache, if e.fromCache then 0 else 1)
  }

  /** The crypto notifications of a run, recorded in order at instant `t`. */
  function RecordEvents(ledger: Ledger, events: seq<UsageEvent>, t: int): (r: Ledger)
    ensures |r| == |ledger| + |events|
    ensures r[..|ledger|] == ledger
    ensures forall i :: 0 <= i < |events| ==> Unstamp(r[|ledger| + i]) == CryptoCall(events[i]) && r[|ledger| + i].timestamp == t
    decreases |events|
  {
    if |events| == 0 then ledger
    else
      var next := RecordCall(ledger, CryptoCall(events[0]), t);
      var rest := events[1..];
      var r := RecordEvents(next, rest, t);
      RecordedAfter(ledger, events, rest, t, next, r);
      r
  }

  /** The first notification recorded, then the rest after it: together they are all recorded after the ledger. */
  lemma RecordedAfter(ledger: Ledger, events: seq<UsageEvent>, rest: seq<UsageEvent>, t: int, next: Ledger, r: Ledger)
    requires |events| > 0 && rest == events[1..]
    requires |next| == |ledger| + 1 && next[..|ledger|] == ledger
    requires Unstamp(next[|ledger|]) == CryptoCall(events[0]) && next[|ledger|].timestamp == t
    requires |r| == |next| + |rest| && r[..|next|] == next
    requires forall i :: 0 <= i < |rest| ==> Unstamp(r[|next| + i]) == CryptoCall(rest[i]) && r[|next| + i].timestamp == t
    ensures r[..|ledger|] == ledger
    ensures forall i :: 0 <= i < |events| ==> Unstamp(r[|ledger| + i]) == CryptoCall(events[i]) && r[|ledger| + i].timestamp == t
  {
    assert r[..|ledger|] == r[..|next|][..|ledger|];
    assert r[|ledger|] == next[|ledger|];
    forall i | 0 < i < |events|
      ensures Unstamp(r[|ledger| + i]) == CryptoCall(events[i]) && r[|ledger| + i].timestamp == t
    {
      assert r[|ledger| + i] == r[|next| + (i - 1)];
      assert events[i] == rest[i - 1];
    }
  }

  /**
   * With the corrected record, a crypto notification leaves the stored sum a
   * number: today's total before it plus its own cost.
   */
  lemma CryptoCallKeepsTotals(ledger: Ledger, e: UsageEvent, now: int)
    ensures JsTotalToday(StoredLedger(RecordCall(ledger, CryptoCall(e), now)), now)
            == Num(TotalCallsToday(ledger, now) + (if e.fromCache then 0 else 1))
  {
    CryptoCallTotal(ledger, e, now);
    StoredTotalAgrees(RecordCall(ledger, CryptoCall(e), now), now);
  }

  /** With the corrected record, a crypto notification raises today's total by its own cost. */
  lemma CryptoCallTotal(ledger: Ledger, e: UsageEvent, now: int)
    ensures TotalCallsToday(RecordCall(ledger, CryptoCall(e), now), now)
            == TotalCallsToday(ledger, now) + (if e.fromCache then 0 else 1)
  {
    RecordCallTotal(ledger, CryptoCall(e), now);
  }

  /** A corrected crypto notification leaves the stock provider's per-minute count alone. */
  lemma CryptoCallKeepsMinute(ledger: Ledger, e: UsageEvent, now: int)
    ensures CallsInLastMinute(RecordCall(ledger, CryptoCall(e), now), now) == CallsInLastMinute(ledger, now)
  {
    RecordCallMinute(ledger, CryptoCall(e), now, now);
  }

  /**
   * A crypto run's notifications, recorded with the corrected record, raise
   * today's total by one unit per notification not served from the cache.
   * That is one per request, except that a failed reply notifies twice (see
   * `GetPriceBill`).
   */
  lemma {:induction false} RecordEventsTotal(ledger: Ledger, events: seq<UsageEvent>, now: int)
    ensures TotalCallsToday(RecordEvents(ledger, events, now), now) == TotalCallsToday(ledger, now) + Requests(events)
    decreases |events|
  {
    if |events| > 0 {
      var next := RecordCall(ledger, CryptoCall(events[0]), now);
      RecordCallTotal(ledger, CryptoCall(events[0]), now);
      RecordEventsTotal(next, events[1..], now);
    }
  }

  /** The number of notifications not served from the cache. */
  function Requests(events: seq<UsageEvent>): (n: nat)
    ensures n <= |events|
    ensures n == 0 <==> forall i :: 0 <= i < |events| ==> events[i].fromCache
    decreases |events|
  {
    if |events| == 0 then 0
    else
      assert forall i :: 0 < i < |events| ==> events[i] == events[1..][i - 1];
      (if events[0].fromCache then 0 else 1) + Requests(events[1..])
  }

  /**
   * What one `getPrice` call adds to today's total once its notifications are
   * recorded with the corrected record: nothing for a cache hit, one unit for
   * a fresh price or a transport error, and two units for a non-OK status or
   * a missing coin, which the client reports twice for its single request.
   */
  lemma GetPriceBill(st: State, id: string, useCache: bool, now: int, net: Network, ledger: Ledger, t: int)
    ensures var s := GetPrice(st, id, useCache, now, net);
            && |st.events| <= |s.state.events|
            && TotalCallsToday(RecordEvents(ledger, s.state.events[|st.events|..], t), t)
               == TotalCallsToday(ledger, t)
                  + if !s.fetched then 0
                    else if net([id], now).response.NotOk? then 2
                    else if net([id], now).response.Ok? && id !in net([id], now).response.body then 2
                    else 1
  {
    var s := GetPrice(st, id, useCache, now, net);
    var added := s.state.events[|st.events|..];
    var reply := net([id], now).response;
    RequestsOfEvents();
    if !s.fetched {
      assert added == [HitEvent];
    } else if reply.NotOk? || (reply.Ok? && id !in reply.body) {
      assert added == [FailedEvent, FailedEvent];
    } else if reply.TransportError? {
      assert added == [FailedEvent];
    } else {
      assert added == [FetchedEvent];
    }
    RecordEventsTotal(ledger, added, t);
  }

  /** How many notifications each of `getPrice`'s outcomes bills. */
  lemma RequestsOfEvents()
    ensures Requests([HitEvent]) == 0 && Requests([FetchedEvent]) == 1
    ensures Requests([FailedEvent]) == 1 && Requests([FailedEvent, FailedEvent]) == 2
  {
    assert [FailedEvent, FailedEvent][1..] == [FailedEvent];
  }
}

=== FILE: crypto_service.dfy ===
/**
 * The crypto price client (`CoinGeckoService`): a per-coin cache with a
 * five-minute lifetime, single-id lookups, and multi-id lookups split into
 * batches of at most 100 ids, each answered partly from the cache and partly
 * by one network request whose body is spread over the ids. The service's
 * usage notifications are kept as abstract events.
 */
module CryptoService {
  import opened Wrappers
  import opened Calendar
  import opened Seqs

  /** How long a cached price stays valid. */
  const CacheDurationMs: int := 5 * MsPerMinute
  /** The most ids sent in one request. */
  const BatchSize: nat := 100
  /** The coin `testConnection` asks for. */
  const TestCoin: string := "bitcoin"

  /** `ProcessedCryptoPrice`. */
  datatype CryptoPrice = CryptoPrice(coinId: string, symbol: string, price: int, change24h: int, lastUpdated: int)

  /** `CryptoPriceCacheEntry`. */
  datatype CacheEntry = CacheEntry(data: CryptoPrice, cachedAt: int, expiresAt: int)

  type PriceCache = map<string, CacheEntry>

  /** One coin's member of the response body. */
  datatype CoinQuote = CoinQuote(usd: int, change24h: int)

  /** An OK response's body, a non-OK status with its text, or a thrown transport or parse error. */
  datatype Response = Ok(body: map<string, CoinQuote>) | NotOk(status: string) | TransportError(message: string)

  datatype Fetch = Fetch(latency: nat, response: Response)

  /** The network: the ids requested and the instant of the request, to the answer. */
  type Network = (seq<string>, int) -> Fetch

  /** A usage notification: the `(success, fromCache)` pair the service reports. */
  datatype UsageEvent = UsageEvent(success: bool, fromCache: bool)

  const HitEvent := UsageEvent(true, true)
  const FetchedEvent := UsageEvent(true, false)
  const FailedEvent := UsageEvent(false, false)

  datatype State = State(cache: PriceCache, events: seq<UsageEvent>)

  /** `CryptoPriceUpdateResult`; an absent `fromCache` is `false`. */
  datatype CryptoResult = CryptoResult(
    success: bool,
    coinId: string,
    symbol: string,
    price: Option<int>,
    lastUpdated: Option<int>,
    error: Option<string>,
    fromCache: bool)

  function UpperChar(c: char): char {
    if 'a' <= c <= 'z' then (c as int - 32) as char else c
  }

  /** `toUpperCase` on ASCII letters. */
  function UpperAscii(s: string): (u: string)
    ensures |u| == |s|
    ensures forall i :: 0 <= i < |s| ==> u[i] == UpperChar(s[i])
  {
    seq(|s|, i requires 0 <= i < |s| => UpperChar(s[i]))
  }

  /** `isCacheValid`: the entry has not reached its expiry instant. */
  predicate IsCacheValid(e: CacheEntry, now: int) {
    now < e.expiresAt
  }

  /** A coin has a cached entry that is valid at `now`. */
  predicate ValidIn(cache: PriceCache, id: string, now: int) {
    id in cache && IsCacheValid(cache[id], now)
  }

  /**
   * In a cache written only by `CacheWrite`, an entry is valid from any
   * instant up to, and excluding, five minutes after it was cached.
   */
  lemma ValidInWindow(cache: PriceCache, id: string, now: int)
    requires WellFormedCache(cache)
    ensures ValidIn(cache, id, now) <==> id in cache && now < cache[id].cachedAt + CacheDurationMs
  {
  }

  /** Every entry expires five minutes after it was cached, as the service writes it. */
  ghost predicate WellFormedCache(cache: PriceCache) {
    forall id :: id in cache ==> cache[id].expiresAt == cache[id].cachedAt + CacheDurationMs
  }

  /** A cache write at `t`: valid until, and excluding, five minutes later. */
  function CacheWrite(cache: PriceCache, id: string, p: CryptoPrice, t: int): (c: PriceCache)
    ensures c.Keys == cache.Keys + {id}
    ensures c[id].data == p && c[id].cachedAt == t
    ensures forall t' :: ValidIn(c, id, t') <==> t' < t + CacheDurationMs
    ensures forall x :: x in cache && x != id ==> c[x] == cache[x]
    ensures WellFormedCache(cache) ==> WellFormedCache(c)
  {
    cache[id := CacheEntry(p, t, t + CacheDurationMs)]
  }

  function ProcessedPrice(id: string, q: CoinQuote, t: int): CryptoPrice {
    CryptoPrice(id, UpperAscii(id), q.usd, q.change24h, t)
  }

  function HitResult(id: string, e: CacheEntry): CryptoResult {
    CryptoResult(true, id, e.data.symbol, Some(e.data.price), Some(e.data.lastUpdated), None, true)
  }

  function FreshResult(p: CryptoPrice): CryptoResult {
    CryptoResult(true, p.coinId, p.symbol, Some(p.price), Some(p.lastUpdated), None, false)
  }

  function FailResult(id: string, message: string): CryptoResult {
    CryptoResult(false, id, UpperAscii(id), None, None, Some(message), false)
  }

  function MissingMessage(id: string): string {
    "No price data found for coin: " + id
  }

  function StatusMessage(status: string): string {
    "CoinGecko API error: " + status
  }

  /** The message the batch handler gives the ids of a failed request. */
  function FailureMessage(response: Response): string
    requires !response.Ok?
  {
    match response
    case NotOk(status) => StatusMessage(status)
    case TransportError(message) => message
  }

  /**
   * The two shapes a result takes: a success carrying a price and its instant
   * (from the cache only when the cache is in use), or a failure carrying an
   * error and no price.
   */
  predicate Shaped(r: CryptoResult, useCache: bool) {
    if r.success then r.price.Some? && r.lastUpdated.Some? && r.error.None? && (r.fromCache ==> useCache)
    else !r.fromCache && r.price.None? && r.lastUpdated.None? && r.error.Some?
  }

  /** Every result from position `k` on is `Shaped`. */
  predicate ShapedFrom(rs: seq<CryptoResult>, k: nat, useCache: bool) {
    forall i :: k <= i < |rs| ==> Shaped(rs[i], useCache)
  }

  /** The outcome of a single lookup; `fetched` tells whether a request was made. */
  datatype Step = Step(state: State, result: CryptoResult, doneAt: int, fetched: bool)

  /**
   * `getPrice`. With `useCache`, a valid entry answers without a request.
   * Otherwise one request is made; a present coin yields a fresh price
   * (cached only when `useCache`), anything else a failure with no price and
   * no stale fallback. A non-OK status or a missing coin notifies a failure
   * twice: once where it is detected and once in the handler.
   */
  function GetPrice(st: State, id: string, useCache: bool, now: int, net: Network): (s: Step)
    ensures s.result.coinId == id
    ensures s.doneAt >= now
    ensures |s.state.events| > |st.events| && s.state.events[..|st.events|] == st.events
    ensures !useCache ==> s.state.cache == st.cache
    ensures !s.fetched <==> useCache && ValidIn(st.cache, id, now)
    ensures !s.fetched ==>
              && s.state == st.(events := st.events + [HitEvent])
              && s.result == HitResult(id, st.cache[id])
    ensures s.fetched ==>
              (s.result.success <==> net([id], now).response.Ok? && id in net([id], now).response.body)
    ensures s.fetched && s.result.success ==>
              && !s.result.fromCache
              && s.result.price == Some(net([id], now).response.body[id].usd)
              && s.state.events == st.events + [FetchedEvent]
              && (useCache ==> s.state.cache == CacheWrite(st.cache, id, ProcessedPrice(id, net([id], now).response.body[id], s.doneAt), s.doneAt))
    ensures s.fetched && !s.result.success ==>
              && s.result.price.None? && !s.result.fromCache && s.result.error.Some?
              && s.state.cache == st.cache
              && (forall i :: |st.events| <= i < |s.state.events| ==> s.state.events[i] == FailedEvent)
    ensures !s.fetched ==> s.doneAt == now
    ensures s.fetched ==> s.doneAt == now + net([id], now).latency
    ensures s.fetched && s.result.success ==>
              s.result == FreshResult(ProcessedPrice(id, net([id], now).response.body[id], s.doneAt))
    // the failure branches: a non-OK status and a missing coin notify twice, a transport error once
    ensures s.fetched && net([id], now).response.NotOk? ==>
              && s.result == FailResult(id, StatusMessage(net([id], now).response.status))
              && s.state.events == st.events + [FailedEvent, FailedEvent]
    ensures s.fetched && net([id], now).response.Ok? && id !in net([id], now).response.body ==>
              && s.result == FailResult(id, MissingMessage(id))
              && s.state.events == st.events + [FailedEvent, FailedEvent]
    ensures s.fetched && net([id], now).response.TransportError? ==>
              && s.result == FailResult(id, net([id], now).response.message)
              && s.state.events == st.events + [FailedEvent]
    ensures WellFormedCache(st.cache) ==> WellFormedCache(s.state.cache)
  {
    if useCache && ValidIn(st.cache, id, now) then
      Step(st.(events := st.events + [HitEvent]), HitResult(id, st.cache[id]), now, false)
    else
      var fetch := net([id], now);
      var done := now + fetch.latency;
      match fetch.response
      case NotOk(status) =>
        Step(st.(events := st.events + [FailedEvent, FailedEvent]), FailResult(id, StatusMessage(status)), done, true)
      case TransportError(message) =>
        Step(st.(events := st.events + [FailedEvent]), FailResult(id, message), done, true)
      case Ok(body) =>
        if id !in body then
          Step(st.(events := st.events + [FailedEvent, FailedEvent]), FailResult(id, MissingMessage(id)), done, true)
        else
          var p := ProcessedPrice(id, body[id], done);
          var cache := if useCache then CacheWrite(st.cache, id, p, done) else st.cache;
          Step(State(cache, st.events + [FetchedEvent]), FreshResult(p), done, true)
  }

  /** A price fetched and cached is served from the cache until five minutes have passed, and fetched again after. */
  lemma CachedCoinLifetime(st: State, id: string, t0: int, t1: int, net: Network)
    requires GetPrice(st, id, true, t0, net).fetched && GetPrice(st, id, true, t0, net).result.success
    ensures !GetPrice(GetPrice(st, id, true, t0, net).state, id, true, t1, net).fetched
            <==> t1 < GetPrice(st, id, true, t0, net).doneAt + CacheDurationMs
  {
  }

  /** The ids of a sequence of results, in order. */
  function CoinIds(rs: seq<CryptoResult>): (ids: seq<string>)
    ensures |ids| == |rs|
    ensures forall i :: 0 <= i < |rs| ==> ids[i] == rs[i].coinId
  {
    if |rs| == 0 then [] else [rs[0].coinId] + CoinIds(rs[1..])
  }

  lemma CoinIdsAppend(a: seq<CryptoResult>, b: seq<CryptoResult>)
    ensures CoinIds(a + b) == CoinIds(a) + CoinIds(b)
  {
  }

  /**
   * The batches of `getMultiplePrices`: consecutive slices of the input, all
   * of exactly 100 ids except a shorter, non-empty last one.
   */
  function Batches(ids: seq<string>): (bs: seq<seq<string>>)
    decreases |ids|
    ensures Flatten(bs) == ids
    ensures forall i :: 0 <= i < |bs| ==> 0 < |bs[i]| <= BatchSize
    ensures forall i :: 0 <= i < |bs| - 1 ==> |bs[i]| == BatchSize
    ensures |ids| == 0 <==> |bs| == 0
  {
    if |ids| == 0 then []
    else if |ids| <= BatchSize then
      assert Flatten([ids]) == ids + Flatten([]);
      [ids]
    else
      var rest := Batches(ids[BatchSize..]);
      assert ([ids[..BatchSize]] + rest)[1..] == rest;
      assert ids == ids[..BatchSize] + ids[BatchSize..];
      [ids[..BatchSize]] + rest
  }

  /** The ids, in order, that have a valid entry at `now`. */
  function HitIds(cache: PriceCache, ids: seq<string>, now: int): (r: seq<string>)
    ensures forall x :: x in r <==> x in ids && ValidIn(cache, x, now)
    ensures Distinct(ids) ==> Distinct(r)
  {
    FilterDistinct(ids, (id: string) => ValidIn(cache, id, now));
    Filter(ids, (id: string) => ValidIn(cache, id, now))
  }

  /** The ids, in order, that have no valid entry at `now`. */
  function MissIds(cache: PriceCache, ids: seq<string>, now: int): (r: seq<string>)
    ensures forall x :: x in r <==> x in ids && !ValidIn(cache, x, now)
    ensures Distinct(ids) ==> Distinct(r)
  {
    FilterDistinct(ids, (id: string) => !ValidIn(cache, id, now));
    Filter(ids, (id: string) => !ValidIn(cache, id, now))
  }

  /** Cache-hit results for ids that all have a valid entry. */
  function HitsFor(cache: PriceCache, ids: seq<string>): (rs: seq<CryptoResult>)
    requires forall id :: id in ids ==> id in cache
    ensures CoinIds(rs) == ids
    ensures forall i :: 0 <= i < |rs| ==> rs[i] == HitResult(ids[i], cache[ids[i]])
  {
    if |ids| == 0 then [] else [HitResult(ids[0], cache[ids[0]])] + HitsFor(cache, ids[1..])
  }

  /** The result for one requested id of an OK body: a fresh price when present, a failure when absent. */
  function BodyResult(body: map<string, CoinQuote>, id: string, t: int): (r: CryptoResult)
    ensures r.coinId == id && !r.fromCache
    ensures r.success <==> id in body
    ensures id in body ==> r.price == Some(body[id].usd) && r.lastUpdated == Some(t)
    ensures id !in body ==> r.price.None? && r.error == Some(MissingMessage(id))
  {
    if id in body then FreshResult(ProcessedPrice(id, body[id], t)) else FailResult(id, MissingMessage(id))
  }

  /** Spread one OK body over the requested ids, one result each, in request order. */
  function BodyResults(body: map<string, CoinQuote>, ids: seq<string>, t: int): (rs: seq<CryptoResult>)
    ensures |rs| == |ids| && forall i :: 0 <= i < |ids| ==> rs[i] == BodyResult(body, ids[i], t)
    ensures CoinIds(rs) == ids
  {
    seq(|ids|, i requires 0 <= i < |ids| => BodyResult(body, ids[i], t))
  }

  /** The cache writes of an OK body: every requested id present in it is cached at `t`. */
  function CacheBody(cache: PriceCache, body: map<string, CoinQuote>, ids: seq<string>, t: int): (c: PriceCache)
    decreases |ids|
    ensures c.Keys == cache.Keys + (set id | id in ids && id in body)
    ensures forall x :: x in cache && !(x in ids && x in body) ==> c[x] == cache[x]
    ensures forall x :: x in ids && x in body ==> c[x].data == ProcessedPrice(x, body[x], t) && c[x].cachedAt == t
    ensures WellFormedCache(cache) ==> WellFormedCache(c)
  {
    if |ids| == 0 then cache
    else
      var c := if ids[0] in body then CacheWrite(cache, ids[0], ProcessedPrice(ids[0], body[ids[0]], t), t) else cache;
      assert forall x :: x in ids <==> x == ids[0] || x in ids[1..];
      CacheBody(c, body, ids[1..], t)
  }

  /**
   * The handler of a failed batch: each id of the batch that has no result
   * yet, among all results gathered so far, gets a failure.
   */
  function FailRemaining(batch: seq<string>, acc: seq<CryptoResult>, message: string): (r: seq<CryptoResult>)
    decreases |batch|
    ensures |r| >= |acc| && r[..|acc|] == acc
    ensures FailedFrom(r, |acc|, message)
  {
    if |batch| == 0 then acc
    else if batch[0] in CoinIds(acc) then FailRemaining(batch[1..], acc, message)
    else
      var acc' := acc + [FailResult(batch[0], message)];
      var r := FailRemaining(batch[1..], acc', message);
      PrefixTrans(acc, acc', r);
      r
  }

  /** Every result from position `k` on is a failure carrying `message`. */
  predicate FailedFrom(rs: seq<CryptoResult>, k: nat, message: string) {
    forall i :: k <= i < |rs| ==> rs[i] == FailResult(rs[i].coinId, message)
  }

  /** After the failure handler every id of the batch has a result, and no other id gained one. */
  lemma {:induction false} FailRemainingIds(batch: seq<string>, acc: seq<CryptoResult>, message: string)
    decreases |batch|
    ensures forall x :: x in CoinIds(FailRemaining(batch, acc, message)) <==> x in CoinIds(acc) || x in batch
    ensures Within(FailRemaining(batch, acc, message), acc, batch)
  {
    if |batch| > 0 {
      var r := FailRemaining(batch, acc, message);
      assert forall x :: x in batch <==> x == batch[0] || x in batch[1..];
      if batch[0] in CoinIds(acc) {
        assert r == FailRemaining(batch[1..], acc, message);
        FailRemainingIds(batch[1..], acc, message);
      } else {
        var acc' := acc + [FailResult(batch[0], message)];
        assert r == FailRemaining(batch[1..], acc', message);
        CoinIdsAppend(acc, [FailResult(batch[0], message)]);
        FailRemainingIds(batch[1..], acc', message);
      }
    }
  }

  /** The failure handler never gives an id a second result. */
  lemma {:induction false} FailRemainingDistinct(batch: seq<string>, acc: seq<CryptoResult>, message: string)
    decreases |batch|
    ensures Distinct(CoinIds(acc)) ==> Distinct(CoinIds(FailRemaining(batch, acc, message)))
  {
    if |batch| > 0 {
      if batch[0] in CoinIds(acc) {
        assert FailRemaining(batch, acc, message) == FailRemaining(batch[1..], acc, message);
        FailRemainingDistinct(batch[1..], acc, message);
      } else {
        var acc' := acc + [FailResult(batch[0], message)];
        assert FailRemaining(batch, acc, message) == FailRemaining(batch[1..], acc', message);
        CoinIdsAppend(acc, [FailResult(batch[0], message)]);
        DistinctAppend(CoinIds(acc), [batch[0]]);
        FailRemainingDistinct(batch[1..], acc', message);
      }
    }
  }

  /** The outcome of a run of batches. */
  datatype Run = Run(state: State, results: seq<CryptoResult>, doneAt: int)

  /**
   * The cache split of a batch: with `useCache`, cache-hit results for the
   * ids with a valid entry and, in order, the ids without one; otherwise no
   * hits and the whole batch.
   */
  function SplitBatch(cache: PriceCache, batch: seq<string>, useCache: bool, now: int)
    : (r: (seq<CryptoResult>, seq<string>))
    ensures forall x :: x in CoinIds(r.0) ==> x in batch && ValidIn(cache, x, now)
    ensures forall x :: x in r.1 ==> x in batch
    ensures forall x :: x in batch ==> x in CoinIds(r.0) || x in r.1
    ensures forall i :: 0 <= i < |r.0| ==>
              && ValidIn(cache, r.0[i].coinId, now)
              && r.0[i] == HitResult(r.0[i].coinId, cache[r.0[i].coinId])
    ensures Distinct(batch) ==> Distinct(CoinIds(r.0)) && Distinct(r.1) && forall x :: x in CoinIds(r.0) ==> x !in r.1
    ensures !useCache ==> r.0 == [] && r.1 == batch
    ensures ShapedFrom(r.0, 0, useCache)
  {
    if useCache then (HitsFor(cache, HitIds(cache, batch, now)), MissIds(cache, batch, now)) else ([], batch)
  }

  /** Every id answered by `rs` was already answered by `acc` or is one of `ids`. */
  predicate Within(rs: seq<CryptoResult>, acc: seq<CryptoResult>, ids: seq<string>) {
    forall x :: x in CoinIds(rs) ==> x in CoinIds(acc) || x in ids
  }

  /** `ids` are distinct, `acc` answers each id at most once, and none of `ids` yet. */
  predicate Unanswered(acc: seq<CryptoResult>, ids: seq<string>) {
    Distinct(CoinIds(acc)) && Distinct(ids) && forall x :: x in ids ==> x !in CoinIds(acc)
  }

  /** `rs` answers every one of `ids`, and no id twice. */
  predicate AnswersOnce(rs: seq<CryptoResult>, ids: seq<string>) {
    Distinct(CoinIds(rs)) && forall x :: x in ids ==> x in CoinIds(rs)
  }

  /** The misses are unanswered and, with `acc`, account for the whole batch. */
  predicate Pending(acc: seq<CryptoResult>, batch: seq<string>, misses: seq<string>) {
    Unanswered(acc, misses) && forall x :: x in batch ==> x in CoinIds(acc) || x in misses
  }

  /**
   * The handling of the reply to a batch's request: on success the reply is
   * spread over the missing ids; on failure the handler answers the batch's
   * ids that have no result yet.
   */
  function Answer(st: State, batch: seq<string>, misses: seq<string>, useCache: bool, acc: seq<CryptoResult>,
                  done: int, response: Response): (r: Run)
    requires forall x :: x in misses ==> x in batch
    ensures |r.results| >= |acc| && r.results[..|acc|] == acc
    ensures Within(r.results, acc, batch)
    ensures Pending(acc, batch, misses) ==> AnswersOnce(r.results, batch)
    ensures r.doneAt == done
    ensures |r.state.events| > |st.events| && r.state.events[..|st.events|] == st.events
    ensures RequestEvents(r.state.events[|st.events|..])
    ensures r.state.events[|st.events|..] == [FetchedEvent] <==> response.Ok?
    ensures response.NotOk? ==> r.state.events[|st.events|..] == [FailedEvent, FailedEvent]
    ensures Replied(r.results, acc, batch, misses, response, done)
    ensures response.Ok? && useCache ==> r.state.cache == CacheBody(st.cache, response.body, misses, done)
    ensures !response.Ok? ==> r.state.cache == st.cache
    ensures ShapedFrom(r.results, |acc|, useCache)
    ensures !useCache ==> r.state.cache == st.cache
    ensures WellFormedCache(st.cache) ==> WellFormedCache(r.state.cache)
  {
    match response
    case Ok(body) =>
      var answered := BodyResults(body, misses, done);
      var cache := if useCache then CacheBody(st.cache, body, misses, done) else st.cache;
      assert (acc + answered)[..|acc|] == acc;
      AnsweredIds(batch, misses, acc, answered);
      ShapedBody(acc, answered, body, misses, done, useCache);
      Run(State(cache, st.events + [FetchedEvent]), acc + answered, done)
    case NotOk(status) =>
      FailRemainingIds(batch, acc, StatusMessage(status));
      FailRemainingDistinct(batch, acc, StatusMessage(status));
      ShapedFailed(FailRemaining(batch, acc, StatusMessage(status)), |acc|, StatusMessage(status), useCache);
      Run(st.(events := st.events + [FailedEvent, FailedEvent]), FailRemaining(batch, acc, StatusMessage(status)), done)
    case TransportError(message) =>
      FailRemainingIds(batch, acc, message);
      FailRemainingDistinct(batch, acc, message);
      ShapedFailed(FailRemaining(batch, acc, message), |acc|, message, useCache);
      Run(st.(events := st.events + [FailedEvent]), FailRemaining(batch, acc, message), done)
  }

  /**
   * The results after a reply to the request for `misses`: an OK body spread
   * over the misses after `prior`, or the failure handler's results for the
   * batch.
   */
  predicate Replied(results: seq<CryptoResult>, prior: seq<CryptoResult>, batch: seq<string>, misses: seq<string>,
                    response: Response, done: int) {
    && (response.Ok? ==> results == prior + BodyResults(response.body, misses, done))
    && (!response.Ok? ==> results == FailRemaining(batch, prior, FailureMessage(response)))
  }

  /** Answering every miss, after results that cover the rest of the batch, covers the batch. */
  lemma AnsweredIds(batch: seq<string>, misses: seq<string>, acc: seq<CryptoResult>, answered: seq<CryptoResult>)
    requires forall x :: x in misses ==> x in batch
    requires CoinIds(answered) == misses
    ensures Within(acc + answered, acc, batch)
    ensures Pending(acc, batch, misses) ==> AnswersOnce(acc + answered, batch)
  {
    CoinIdsAppend(acc, answered);
    DistinctAppend(CoinIds(acc), CoinIds(answered));
  }

  /** The usage events one request records: a success, or one or two failures. */
  predicate RequestEvents(es: seq<UsageEvent>) {
    es == [FetchedEvent] || es == [FailedEvent] || es == [FailedEvent, FailedEvent]
  }

  /**
   * A batch after its cache split: one hit event when the cache answered any
   * id, then, when ids are missing, one request for them.
   */
  function AfterSplit(st: State, batch: seq<string>, useCache: bool, acc: seq<CryptoResult>, clock: int, net: Network,
                      hits: seq<CryptoResult>, misses: seq<string>): (r: Run)
    requires SplitOf(batch, hits, misses)
    ensures |r.results| >= |acc + hits| && r.results[..|acc + hits|] == acc + hits
    ensures Within(r.results, acc, batch)
    ensures Unanswered(acc, batch) ==> AnswersOnce(r.results, batch)
    ensures r.doneAt >= clock
    ensures |misses| == 0 ==> r.results == acc + hits && r.doneAt == clock
    ensures |misses| == 0 ==> r.state.events == st.events + HitEvents(hits)
    ensures ShapedFrom(hits, 0, useCache) ==> ShapedFrom(r.results, |acc|, useCache)
    ensures |misses| > 0 ==>
              var before := st.events + HitEvents(hits);
              |r.state.events| > |before| && r.state.events[..|before|] == before
              && RequestEvents(r.state.events[|before|..])
    ensures !useCache ==> r.state.cache == st.cache
    ensures WellFormedCache(st.cache) ==> WellFormedCache(r.state.cache)
  {
    var st1 := st.(events := st.events + HitEvents(hits));
    HitsIds(batch, acc, hits, misses);
    if |misses| == 0 then
      assert (acc + hits)[..|acc + hits|] == acc + hits;
      ShapedAfterHits(acc, hits, acc + hits, useCache);
      Run(st1, acc + hits, clock)
    else
      var fetch := net(misses, clock);
      var r := Answer(st1, batch, misses, useCache, acc + hits, clock + fetch.latency, fetch.response);
      WithinTrans(r.results, acc + hits, acc, batch);
      ShapedAfterHits(acc, hits, r.results, useCache);
      r
  }

  /**
   * What a batch's request, when one is made, leaves: the reply's results
   * after the hits, the reply's cache writes, and the two result shapes.
   */
  lemma AfterSplitReply(st: State, batch: seq<string>, useCache: bool, acc: seq<CryptoResult>, clock: int, net: Network,
                        hits: seq<CryptoResult>, misses: seq<string>)
    requires SplitOf(batch, hits, misses)
    ensures |misses| > 0 ==>
              AfterSplit(st, batch, useCache, acc, clock, net, hits, misses).doneAt == clock + net(misses, clock).latency
    ensures |misses| > 0 ==>
              Replied(AfterSplit(st, batch, useCache, acc, clock, net, hits, misses).results, acc + hits, batch, misses,
                      net(misses, clock).response, clock + net(misses, clock).latency)
  {
  }

  /** The results of an OK body keep the two result shapes. */
  lemma ShapedBody(acc: seq<CryptoResult>, answered: seq<CryptoResult>, body: map<string, CoinQuote>, misses: seq<string>,
                   done: int, useCache: bool)
    requires answered == BodyResults(body, misses, done)
    ensures ShapedFrom(acc + answered, |acc|, useCache)
  {
    forall i | |acc| <= i < |acc + answered| ensures Shaped((acc + answered)[i], useCache) {
      assert (acc + answered)[i] == BodyResult(body, misses[i - |acc|], done);
    }
  }

  /** Failures carrying a message keep the two result shapes. */
  lemma ShapedFailed(rs: seq<CryptoResult>, k: nat, message: string, useCache: bool)
    requires FailedFrom(rs, k, message)
    ensures ShapedFrom(rs, k, useCache)
  {
  }

  /** Shaped hits, then results shaped after them, are shaped after `acc`. */
  lemma ShapedAfterHits(acc: seq<CryptoResult>, hits: seq<CryptoResult>, rs: seq<CryptoResult>, useCache: bool)
    requires |rs| >= |acc + hits| && rs[..|acc + hits|] == acc + hits
    ensures ShapedFrom(hits, 0, useCache) && ShapedFrom(rs, |acc + hits|, useCache) ==> ShapedFrom(rs, |acc|, useCache)
  {
    if ShapedFrom(hits, 0, useCache) && ShapedFrom(rs, |acc + hits|, useCache) {
      forall i | |acc| <= i < |acc + hits| ensures Shaped(rs[i], useCache) {
        assert rs[i] == rs[..|acc + hits|][i] == hits[i - |acc|];
      }
    }
  }

  /** The cache-hit record of a batch: one when the cache answered any of its ids. */
  function HitEvents(hits: seq<CryptoResult>): (es: seq<UsageEvent>)
    ensures |es| <= 1 && (es == [HitEvent] <==> |hits| > 0)
  {
    if |hits| > 0 then [HitEvent] else []
  }

  /** Cache hits for part of a batch, after results for none of it, leave the rest pending. */
  lemma HitsIds(batch: seq<string>, acc: seq<CryptoResult>, hits: seq<CryptoResult>, misses: seq<string>)
    requires SplitOf(batch, hits, misses)
    ensures Within(acc + hits, acc, batch)
    ensures Unanswered(acc, batch) ==> Pending(acc + hits, batch, misses)
  {
    CoinIdsAppend(acc, hits);
    DistinctAppend(CoinIds(acc), CoinIds(hits));
  }

  /** What the cache split of a batch promises: hits and misses partition it, disjointly when it is duplicate-free. */
  predicate SplitOf(batch: seq<string>, hits: seq<CryptoResult>, misses: seq<string>) {
    && (forall x :: x in CoinIds(hits) ==> x in batch)
    && (forall x :: x in misses ==> x in batch)
    && (forall x :: x in batch ==> x in CoinIds(hits) || x in misses)
    && (Distinct(batch) ==> Distinct(CoinIds(hits)) && Distinct(misses) && forall x :: x in CoinIds(hits) ==> x !in misses)
  }

  /** Answers within a batch after `mid`, which is within it after `acc`, are within it after `acc`. */
  lemma WithinTrans(rs: seq<CryptoResult>, mid: seq<CryptoResult>, acc: seq<CryptoResult>, ids: seq<string>)
    requires Within(rs, mid, ids) && Within(mid, acc, ids)
    ensures Within(rs, acc, ids)
  {
  }

  /**
   * One iteration of the batch loop of `getMultiplePrices`: at most one hit
   * event and at most one request per batch. A batch only answers its own
   * ids; for distinct ids not yet answered, it answers each of them exactly
   * once, whether the request succeeds or fails.
   */
  function ProcessBatch(st: State, batch: seq<string>, useCache: bool, acc: seq<CryptoResult>, clock: int, net: Network)
    : (r: Run)
    ensures |r.results| >= |acc| && r.results[..|acc|] == acc
    ensures Within(r.results, acc, batch)
    ensures Unanswered(acc, batch) ==> AnswersOnce(r.results, batch)
    ensures r.doneAt >= clock
    ensures |r.state.events| >= |st.events| && r.state.events[..|st.events|] == st.events
    ensures BatchEvents(r.state.events[|st.events|..])
    ensures |batch| > 0 ==> |r.state.events| > |st.events|
    ensures ShapedFrom(r.results, |acc|, useCache)
    ensures !useCache ==> r.state.cache == st.cache
    ensures WellFormedCache(st.cache) ==> WellFormedCache(r.state.cache)
  {
    var split := SplitBatch(st.cache, batch, useCache, clock);
    assert SplitOf(batch, split.0, split.1);
    var r := AfterSplit(st, batch, useCache, acc, clock, net, split.0, split.1);
    PrefixTrans(acc, acc + split.0, r.results);
    assert |batch| > 0 ==> batch[0] in CoinIds(split.0) || batch[0] in split.1;
    BatchEventsAfter(st.events, HitEvents(split.0), r.state.events, |split.1| > 0);
    r
  }

  /**
   * What one batch leaves after `acc`: its cache hits, then, when ids were
   * missing, the results of the reply to the one request for them.
   */
  lemma ProcessBatchReply(st: State, batch: seq<string>, useCache: bool, acc: seq<CryptoResult>, clock: int, net: Network)
    ensures var split := SplitBatch(st.cache, batch, useCache, clock);
            |split.1| == 0 ==> ProcessBatch(st, batch, useCache, acc, clock, net).results == acc + split.0
    ensures var split := SplitBatch(st.cache, batch, useCache, clock);
            |split.1| > 0 ==>
              Replied(ProcessBatch(st, batch, useCache, acc, clock, net).results, acc + split.0, batch, split.1,
                      net(split.1, clock).response, clock + net(split.1, clock).latency)
  {
    var split := SplitBatch(st.cache, batch, useCache, clock);
    assert ProcessBatch(st, batch, useCache, acc, clock, net).results == AfterSplit(st, batch, useCache, acc, clock, net, split.0, split.1).results;
    AfterSplitReply(st, batch, useCache, acc, clock, net, split.0, split.1);
  }

  /** Records that extend `prior` by an optional hit record and, when a request was made, its records. */
  lemma BatchEventsAfter(prior: seq<UsageEvent>, hit: seq<UsageEvent>, evs: seq<UsageEvent>, asked: bool)
    requires hit == [] || hit == [HitEvent]
    requires !asked ==> evs == prior + hit
    requires asked ==> |evs| > |prior + hit| && evs[..|prior + hit|] == prior + hit && RequestEvents(evs[|prior + hit|..])
    ensures |evs| >= |prior| && evs[..|prior|] == prior
    ensures BatchEvents(evs[|prior|..])
    ensures asked || hit != [] ==> |evs| > |prior|
  {
    if asked {
      assert evs[|prior|..] == hit + evs[|prior + hit|..];
    }
  }

  /** The records of one batch: an optional cache-hit record, then the records of at most one request. */
  predicate BatchEvents(es: seq<UsageEvent>) {
    es == [] || es == [HitEvent] || RequestEvents(es) || (|es| > 1 && es[0] == HitEvent && RequestEvents(es[1..]))
  }

  /** Results extending `acc` answer every id `acc` answers. */
  lemma PrefixKeepsIds(acc: seq<CryptoResult>, rs: seq<CryptoResult>)
    requires |rs| >= |acc| && rs[..|acc|] == acc
    ensures forall x :: x in CoinIds(acc) ==> x in CoinIds(rs)
  {
    forall x | x in CoinIds(acc) ensures x in CoinIds(rs) {
      var i :| 0 <= i < |acc| && CoinIds(acc)[i] == x;
      assert rs[i] == rs[..|acc|][i];
      assert CoinIds(rs)[i] == x;
    }
  }

  /** The batch loop of `getMultiplePrices`, over the remaining batches. */
  function ProcessBatches(st: State, bs: seq<seq<string>>, useCache: bool, acc: seq<CryptoResult>, clock: int, net: Network)
    : (r: Run)
    decreases |bs|
    ensures |r.results| >= |acc| && r.results[..|acc|] == acc
    ensures Within(r.results, acc, Flatten(bs))
    ensures Unanswered(acc, Flatten(bs)) ==> AnswersOnce(r.results, Flatten(bs))
    ensures r.doneAt >= clock
    ensures |r.state.events| >= |st.events| && r.state.events[..|st.events|] == st.events
    ensures |bs| > 0 && |bs[0]| > 0 ==> |r.state.events| > |st.events|
    ensures ShapedFrom(r.results, |acc|, useCache)
    ensures !useCache ==> r.state.cache == st.cache
    ensures WellFormedCache(st.cache) ==> WellFormedCache(r.state.cache)
  {
    if |bs| == 0 then Run(st, acc, clock)
    else
      var one := ProcessBatch(st, bs[0], useCache, acc, clock, net);
      var rest := ProcessBatches(one.state, bs[1..], useCache, one.results, one.doneAt, net);
      PrefixTrans(acc, one.results, rest.results);
      PrefixTrans(st.events, one.state.events, rest.state.events);
      ChainIds(acc, one.results, rest.results, bs[0], Flatten(bs[1..]));
      ShapedChain(acc, one.results, rest.results, useCache);
      assert Flatten(bs) == bs[0] + Flatten(bs[1..]);
      rest
  }

  /** Results shaped after `one`, which is shaped after `acc`, are shaped after `acc`. */
  lemma ShapedChain(acc: seq<CryptoResult>, one: seq<CryptoResult>, rest: seq<CryptoResult>, useCache: bool)
    requires |one| >= |acc| && |rest| >= |one| && rest[..|one|] == one
    requires ShapedFrom(one, |acc|, useCache) && ShapedFrom(rest, |one|, useCache)
    ensures ShapedFrom(rest, |acc|, useCache)
  {
    forall i | |acc| <= i < |one| ensures Shaped(rest[i], useCache) {
      assert rest[i] == rest[..|one|][i];
    }
  }

  /** One batch followed by the rest of the batches answers their concatenation. */
  lemma ChainIds(acc: seq<CryptoResult>, one: seq<CryptoResult>, rest: seq<CryptoResult>, b: seq<string>, more: seq<string>)
    requires |rest| >= |one| && rest[..|one|] == one
    requires Within(one, acc, b) && (Unanswered(acc, b) ==> AnswersOnce(one, b))
    requires Within(rest, one, more) && (Unanswered(one, more) ==> AnswersOnce(rest, more))
    ensures Within(rest, acc, b + more)
    ensures Unanswered(acc, b + more) ==> AnswersOnce(rest, b + more)
  {
    DistinctAppend(b, more);
    PrefixKeepsIds(one, rest);
  }

  /**
   * `getMultiplePrices`. Empty input returns nothing and notifies nothing.
   * For distinct ids every id gets exactly one result, whatever the network
   * does; without `useCache` the cache is left as it was.
   */
  function GetMultiplePrices(st: State, ids: seq<string>, useCache: bool, now: int, net: Network): (r: Run)
    ensures |ids| == 0 ==> r.state == st && r.results == []
    ensures forall x :: x in CoinIds(r.results) ==> x in ids
    ensures Distinct(ids) ==> Distinct(CoinIds(r.results)) && forall x :: x in ids ==> x in CoinIds(r.results)
    ensures Distinct(ids) ==> |r.results| == |ids|
    ensures ShapedFrom(r.results, 0, useCache)
    ensures |r.state.events| >= |st.events| && r.state.events[..|st.events|] == st.events
    ensures |ids| > 0 ==> |r.state.events| > |st.events|
    ensures !useCache ==> r.state.cache == st.cache
    ensures WellFormedCache(st.cache) ==> WellFormedCache(r.state.cache)
  {
    if |ids| == 0 then Run(st, [], now)
    else
      var r := ProcessBatches(st, Batches(ids), useCache, [], now, net);
      assert Distinct(CoinIds([]));
      SameElementsSameLength(CoinIds(r.results), ids);
      r
  }

  /**
   * Up to 100 ids make one batch: its cache hits, then, when ids were
   * missing, the results of the reply to the one request for them. (Without
   * the cache there are no hits and every id is missing.)
   */
  lemma OneBatchPrices(st: State, ids: seq<string>, useCache: bool, now: int, net: Network)
    requires 0 < |ids| <= BatchSize
    ensures var split := SplitBatch(st.cache, ids, useCache, now);
            |split.1| == 0 ==> GetMultiplePrices(st, ids, useCache, now, net).results == split.0
    ensures var split := SplitBatch(st.cache, ids, useCache, now);
            |split.1| > 0 ==>
              Replied(GetMultiplePrices(st, ids, useCache, now, net).results, split.0, ids, split.1,
                      net(split.1, now).response, now + net(split.1, now).latency)
  {
    var split := SplitBatch(st.cache, ids, useCache, now);
    assert Batches(ids) == [ids];
    var one := ProcessBatch(st, ids, useCache, [], now, net);
    assert ProcessBatches(st, [ids], useCache, [], now, net) == ProcessBatches(one.state, [], useCache, one.results, one.doneAt, net);
    ProcessBatchReply(st, ids, useCache, [], now, net);
    assert [] + split.0 == split.0;
  }

  /** Two duplicate-free sequences with the same elements have the same length. */
  lemma SameElementsSameLength(a: seq<string>, b: seq<string>)
    ensures Distinct(a) && Distinct(b) && (forall x :: x in a <==> x in b) ==> |a| == |b|
  {
    if Distinct(a) && Distinct(b) && (forall x :: x in a <==> x in b) {
      DistinctCardinality(a);
      DistinctCardinality(b);
      assert (set x | x in a) == (set x | x in b);
    }
  }

  lemma {:induction false} DistinctCardinality(a: seq<string>)
    requires Distinct(a)
    ensures |set x | x in a| == |a|
  {
    if |a| > 0 {
      assert Distinct(a[1..]) by {
        forall i, j | 0 <= i < j < |a[1..]| ensures a[1..][i] != a[1..][j] {
          assert a[1..][i] == a[i + 1] && a[1..][j] == a[j + 1];
        }
      }
      DistinctCardinality(a[1..]);
      assert forall j :: 0 <= j < |a[1..]| ==> a[1..][j] == a[j + 1];
      assert (set x | x in a) == (set x | x in a[1..]) + {a[0]};
    }
  }

  /**
   * `getCachedPricesOnly`: the ids with a valid entry, in input order, each
   * answered from the cache. No request and no notification.
   */
  function GetCachedPricesOnly(cache: PriceCache, ids: seq<string>, now: int): (rs: seq<CryptoResult>)
    ensures CoinIds(rs) == Filter(ids, (id: string) => ValidIn(cache, id, now))
    ensures forall i :: 0 <= i < |rs| ==>
              && ValidIn(cache, rs[i].coinId, now)
              && rs[i].success && rs[i].fromCache
              && rs[i] == HitResult(rs[i].coinId, cache[rs[i].coinId])
  {
    var hitIds := Filter(ids, (id: string) => ValidIn(cache, id, now));
    assert forall i :: 0 <= i < |hitIds| ==> hitIds[i] in hitIds;
    HitsFor(cache, hitIds)
  }

  /** Every cache-only answer is exactly what a cached single lookup would return. */
  lemma CachedOnlyAgreesWithGetPrice(st: State, ids: seq<string>, now: int, net: Network)
    ensures forall i :: 0 <= i < |GetCachedPricesOnly(st.cache, ids, now)| ==>
              GetCachedPricesOnly(st.cache, ids, now)[i] == GetPrice(st, GetCachedPricesOnly(st.cache, ids, now)[i].coinId, true, now, net).result
  {
    var rs := GetCachedPricesOnly(st.cache, ids, now);
    forall i | 0 <= i < |rs|
      ensures rs[i] == GetPrice(st, rs[i].coinId, true, now, net).result
    {
      assert rs[i].coinId in CoinIds(rs);
    }
  }

  datatype ConnectionReport = ConnectionReport(success: bool, message: string)

  /**
   * `testConnection`: an uncached lookup of the test coin, which notifies as
   * any fetch does: one success, two failures for a non-OK status or a
   * missing coin, one failure for a transport error.
   */
  function TestConnection(st: State, now: int, net: Network): (r: (State, ConnectionReport))
    ensures r.0.cache == st.cache
    ensures r.1.success <==> net([TestCoin], now).response.Ok? && TestCoin in net([TestCoin], now).response.body
    ensures r.1.success ==> r.0.events == st.events + [FetchedEvent]
    ensures net([TestCoin], now).response.NotOk? ==>
              && r.0.events == st.events + [FailedEvent, FailedEvent]
              && r.1.message == StatusMessage(net([TestCoin], now).response.status)
    ensures net([TestCoin], now).response.Ok? && TestCoin !in net([TestCoin], now).response.body ==>
              && r.0.events == st.events + [FailedEvent, FailedEvent]
              && r.1.message == MissingMessage(TestCoin)
    ensures net([TestCoin], now).response.TransportError? ==>
              && r.0.events == st.events + [FailedEvent]
              && r.1.message == net([TestCoin], now).response.message
  {
    var step := GetPrice(st, TestCoin, false, now, net);
    var message := if step.result.success then "CoinGecko API working"
                   else step.result.error.GetOr("Unknown error testing CoinGecko API");
    (step.state, ConnectionReport(step.result.success, message))
  }

  /** `clearCache`: forget every cached price; notifications are untouched. */
  function ClearCache(st: State): (s: State)
    ensures s.cache == map[] && s.events == st.events
  {
    st.(cache := map[])
  }
}

=== FILE: portfolio_utils.dfy ===
/**
 * The portfolio helpers: which assets to ask each price service about, how
 * price results are written back into the portfolio, and which assets are
 * due for a refresh.
 */
module PortfolioUtils {
  import opened Wrappers
  import opened Calendar
  import opened Seqs
  import opened ApiTypes

  /** Where an asset's price comes from (`'alphavantage' | 'coingecko' | 'manual'`). */
  datatype ApiSource = AlphaVantage | CoinGecko | Manual

  /**
   * A portfolio asset, with the fields the helpers read or write and a few
   * descriptive ones that must pass through untouched. Money and share
   * amounts are whole numbers; `lastApiUpdate` is an instant in ms.
   */
  datatype Asset = Asset(
    accountName: string,
    actualAsset: string,
    underlyingAsset: string,
    notes: string,
    amount: int,
    shareAmount: int,
    sharePrice: int,
    updateDate: string,
    symbol: Option<string>,
    coinId: Option<string>,
    apiSource: Option<ApiSource>,
    lastApiUpdate: Option<int>)

  type Portfolio = seq<Asset>

  /** The symbol an asset contributes to the stock request, if any. */
  function StockKey(a: Asset): Option<string> {
    if a.apiSource == Some(AlphaVantage) && TruthyString(a.symbol) then a.symbol else None
  }

  /** The coin id an asset contributes to the crypto request, if any. */
  function CryptoKey(a: Asset): Option<string> {
    if a.apiSource == Some(CoinGecko) && TruthyString(a.coinId) then a.coinId else None
  }

  /** The keys of the assets that have one, in portfolio order (the filter-then-map step). */
  function Keys(p: Portfolio, key: Asset -> Option<string>): (ks: seq<string>)
    ensures forall x :: x in ks <==> exists i :: 0 <= i < |p| && key(p[i]) == Some(x)
  {
    if |p| == 0 then []
    else
      var rest := Keys(p[1..], key);
      assert forall i :: 0 <= i < |p[1..]| ==> p[1..][i] == p[i + 1];
      if key(p[0]).Some? then [key(p[0]).value] + rest else rest
  }

  /**
   * The keys keep portfolio order and repetitions: the extraction works asset
   * by asset, so it distributes over concatenation, and a single asset
   * contributes its key when it has one.
   */
  lemma {:induction false} KeysInOrder(p: Portfolio, q: Portfolio, a: Asset, key: Asset -> Option<string>)
    ensures Keys(p + q, key) == Keys(p, key) + Keys(q, key)
    ensures Keys([a], key) == if key(a).Some? then [key(a).value] else []
    decreases |p|
  {
    if |p| == 0 {
      assert p + q == q;
    } else {
      assert (p + q)[1..] == p[1..] + q;
      KeysInOrder(p[1..], q, a, key);
    }
    assert [a][1..] == [];
  }

  /**
   * `getStockSymbols`: the symbols of the Alpha Vantage assets that have a
   * non-empty one, each once, in order of first occurrence.
   */
  function GetStockSymbols(p: Portfolio): (r: seq<string>)
    ensures Distinct(r)
    ensures forall x :: x in r <==>
              exists i :: 0 <= i < |p| && p[i].apiSource == Some(AlphaVantage) && p[i].symbol == Some(x) && x != ""
    ensures forall x :: x in r <==> x in Keys(p, StockKey)
    ensures forall i, j :: 0 <= i < j < |r| ==> IndexOf(Keys(p, StockKey), r[i]) < IndexOf(Keys(p, StockKey), r[j])
  {
    Dedup(Keys(p, StockKey))
  }

  /**
   * `getCryptoCoinIds`: the coin ids of the CoinGecko assets that have a
   * non-empty one, each once, in order of first occurrence.
   */
  function GetCryptoCoinIds(p: Portfolio): (r: seq<string>)
    ensures Distinct(r)
    ensures forall x :: x in r <==>
              exists i :: 0 <= i < |p| && p[i].apiSource == Some(CoinGecko) && p[i].coinId == Some(x) && x != ""
    ensures forall x :: x in r <==> x in Keys(p, CryptoKey)
    ensures forall i, j :: 0 <= i < j < |r| ==> IndexOf(Keys(p, CryptoKey), r[i]) < IndexOf(Keys(p, CryptoKey), r[j])
  {
    Dedup(Keys(p, CryptoKey))
  }

  /** A duplicate-free list is its own deduplication. */
  lemma {:induction false} DedupOfDistinct(s: seq<string>)
    requires Distinct(s)
    ensures Dedup(s) == s
  {
    DistinctFirstOccurrences(s, 0);
  }

  lemma {:induction false} DistinctFirstOccurrences(s: seq<string>, from: nat)
    requires Distinct(s) && from <= |s|
    decreases |s| - from
    ensures FirstOccurrencesFrom(s, from) == s[from..]
  {
    if from < |s| {
      DistinctIndexOf(s, from);
      DistinctFirstOccurrences(s, from + 1);
      assert s[from..] == [s[from]] + s[from + 1..];
    }
  }

  /** In a duplicate-free list every element is first found where it stands. */
  lemma DistinctIndexOf(s: seq<string>, k: nat)
    requires Distinct(s) && k < |s|
    ensures IndexOf(s, s[k]) == k
  {
  }

  /** The symbol list is already duplicate-free: selecting again from it changes nothing. */
  lemma StockSymbolsStable(p: Portfolio)
    ensures Dedup(GetStockSymbols(p)) == GetStockSymbols(p)
  {
    DedupOfDistinct(GetStockSymbols(p));
  }

  /** A map lookup, as `Map.get`. */
  function Lookup(m: map<string, PriceUpdateResult>, k: string): Option<PriceUpdateResult> {
    if k in m then Some(m[k]) else None
  }

  /** The price result an asset is matched with, if its source, key and map allow one. */
  function PriceFor(a: Asset, stockPrices: map<string, PriceUpdateResult>,
                    cryptoPrices: Option<map<string, PriceUpdateResult>>): Option<PriceUpdateResult>
  {
    if a.apiSource == Some(AlphaVantage) && TruthyString(a.symbol) then Lookup(stockPrices, a.symbol.value)
    else if a.apiSource == Some(CoinGecko) && TruthyString(a.coinId) && cryptoPrices.Some? then
      Lookup(cryptoPrices.value, a.coinId.value)
    else None
  }

  /** A result that may be written back: a success with a truthy (present, non-zero) price. */
  predicate Usable(e: Option<PriceUpdateResult>) {
    e.Some? && e.value.success && e.value.price.Some? && e.value.price.value != 0
  }

  /**
   * One asset of `updatePortfolioWithPrices`. With a usable result only the
   * share price, the amount (share count times price), the last update and
   * the display date change; otherwise the asset comes back as it was.
   */
  function UpdateAsset(a: Asset, stockPrices: map<string, PriceUpdateResult>,
                       cryptoPrices: Option<map<string, PriceUpdateResult>>, dateLabel: string): (r: Asset)
    ensures !Usable(PriceFor(a, stockPrices, cryptoPrices)) ==> r == a
    ensures Usable(PriceFor(a, stockPrices, cryptoPrices)) ==>
              var e := PriceFor(a, stockPrices, cryptoPrices).value;
              && r.sharePrice == e.price.value
              && r.amount == a.shareAmount * r.sharePrice
              && r.lastApiUpdate == e.lastUpdated
              && r.updateDate == dateLabel
    ensures r.(sharePrice := a.sharePrice, amount := a.amount, lastApiUpdate := a.lastApiUpdate, updateDate := a.updateDate) == a
  {
    var e := PriceFor(a, stockPrices, cryptoPrices);
    if Usable(e) then
      a.(sharePrice := e.value.price.value, amount := a.shareAmount * e.value.price.value,
         lastApiUpdate := e.value.lastUpdated, updateDate := dateLabel)
    else a
  }

  /**
   * `updatePortfolioWithPrices`, with the display date of "today" as a
   * parameter: the same assets in the same order, each updated on its own.
   */
  function UpdatePortfolioWithPrices(p: Portfolio, stockPrices: map<string, PriceUpdateResult>,
                                     cryptoPrices: Option<map<string, PriceUpdateResult>>, dateLabel: string): (r: Portfolio)
    ensures |r| == |p|
    ensures forall i :: 0 <= i < |p| ==> !Usable(PriceFor(p[i], stockPrices, cryptoPrices)) ==> r[i] == p[i]
    ensures forall i :: 0 <= i < |p| && Usable(PriceFor(p[i], stockPrices, cryptoPrices)) ==>
              && r[i].sharePrice == PriceFor(p[i], stockPrices, cryptoPrices).value.price.value
              && r[i].amount == p[i].shareAmount * r[i].sharePrice
              && r[i].lastApiUpdate == PriceFor(p[i], stockPrices, cryptoPrices).value.lastUpdated
              && r[i].updateDate == dateLabel
    ensures forall i :: 0 <= i < |p| ==>
              r[i].(sharePrice := p[i].sharePrice, amount := p[i].amount,
                    lastApiUpdate := p[i].lastApiUpdate, updateDate := p[i].updateDate) == p[i]
  {
    seq(|p|, i requires 0 <= i < |p| => UpdateAsset(p[i], stockPrices, cryptoPrices, dateLabel))
  }

  /** Applying the same results twice is the same as applying them once. */
  lemma UpdateIdempotent(p: Portfolio, stockPrices: map<string, PriceUpdateResult>,
                         cryptoPrices: Option<map<string, PriceUpdateResult>>, dateLabel: string)
    ensures UpdatePortfolioWithPrices(UpdatePortfolioWithPrices(p, stockPrices, cryptoPrices, dateLabel),
                                      stockPrices, cryptoPrices, dateLabel)
         == UpdatePortfolioWithPrices(p, stockPrices, cryptoPrices, dateLabel)
  {
    var once := UpdatePortfolioWithPrices(p, stockPrices, cryptoPrices, dateLabel);
    var twice := UpdatePortfolioWithPrices(once, stockPrices, cryptoPrices, dateLabel);
    forall i | 0 <= i < |p| ensures twice[i] == once[i] {
      assert PriceFor(once[i], stockPrices, cryptoPrices) == PriceFor(p[i], stockPrices, cryptoPrices);
    }
  }

  /** Price updates never change which symbols and coin ids the portfolio asks for. */
  lemma UpdateKeepsRequests(p: Portfolio, stockPrices: map<string, PriceUpdateResult>,
                            cryptoPrices: Option<map<string, PriceUpdateResult>>, dateLabel: string)
    ensures GetStockSymbols(UpdatePortfolioWithPrices(p, stockPrices, cryptoPrices, dateLabel)) == GetStockSymbols(p)
    ensures GetCryptoCoinIds(UpdatePortfolioWithPrices(p, stockPrices, cryptoPrices, dateLabel)) == GetCryptoCoinIds(p)
  {
    var q := UpdatePortfolioWithPrices(p, stockPrices, cryptoPrices, dateLabel);
    KeysOfSameKeys(q, p, StockKey);
    KeysOfSameKeys(q, p, CryptoKey);
  }

  lemma {:induction false} KeysOfSameKeys(q: Portfolio, p: Portfolio, key: Asset -> Option<string>)
    requires |q| == |p| && forall i :: 0 <= i < |p| ==> key(q[i]) == key(p[i])
    ensures Keys(q, key) == Keys(p, key)
  {
    if |p| > 0 {
      KeysOfSameKeys(q[1..], p[1..], key);
    }
  }

  /** An asset priced by a service, as opposed to manually or not at all. */
  predicate ApiSourced(a: Asset) {
    a.apiSource == Some(AlphaVantage) || a.apiSource == Some(CoinGecko)
  }

  /** The filter condition of `getAssetsNeedingUpdate`, with the present instant as a parameter. */
  predicate DueForUpdate(a: Asset, now: int) {
    ApiSourced(a) && (a.lastApiUpdate.None? || Day(a.lastApiUpdate.value) != Day(now))
  }

  /**
   * `getAssetsNeedingUpdate`: the service-priced assets, in portfolio order,
   * that were never updated or last updated on another day than today.
   */
  function GetAssetsNeedingUpdate(p: Portfolio, now: int): (r: Portfolio)
    ensures |r| <= |p|
    ensures forall a :: a in r <==> a in p && ApiSourced(a) && (a.lastApiUpdate.None? || Day(a.lastApiUpdate.value) != Day(now))
  {
    Filter(p, (a: Asset) => DueForUpdate(a, now))
  }

  /** Selecting again from the selection changes nothing. */
  lemma NeedingUpdateIdempotent(p: Portfolio, now: int)
    ensures GetAssetsNeedingUpdate(GetAssetsNeedingUpdate(p, now), now) == GetAssetsNeedingUpdate(p, now)
  {
    FilterKeepsAll(GetAssetsNeedingUpdate(p, now), (a: Asset) => DueForUpdate(a, now));
  }

  /** The assets needing an update and the rest together are the whole portfolio. */
  lemma NeedingUpdatePartition(p: Portfolio, now: int)
    ensures multiset(GetAssetsNeedingUpdate(p, now)) + multiset(Filter(p, (a: Asset) => !DueForUpdate(a, now)))
         == multiset(p)
  {
    FilterPartition(p, (a: Asset) => DueForUpdate(a, now), (a: Asset) => !DueForUpdate(a, now));
  }

  /**
   * An asset written back with a result stamped today is no longer due; one
   * stamped on another day still is.
   */
  lemma UpdatedTodayNotDue(a: Asset, stockPrices: map<string, PriceUpdateResult>,
                           cryptoPrices: Option<map<string, PriceUpdateResult>>, dateLabel: string, now: int)
    requires Usable(PriceFor(a, stockPrices, cryptoPrices))
    requires PriceFor(a, stockPrices, cryptoPrices).value.lastUpdated.Some?
    ensures DueForUpdate(UpdateAsset(a, stockPrices, cryptoPrices, dateLabel), now)
        <==> Day(PriceFor(a, stockPrices, cryptoPrices).value.lastUpdated.value) != Day(now)
  {
  }

  /** The freshness of an asset's price. */
  datatype Freshness = Never | Stale | Fresh

  /** `getAssetUpdateStatus`; the formatted last-update string is its instant here. */
  datatype UpdateStatus = UpdateStatus(status: Freshness, lastUpdate: Option<int>, needsUpdate: bool)

  /**
   * `getAssetUpdateStatus`: never updated, updated today, or updated on an
   * earlier or later day; an update is needed when not fresh, unless the
   * asset is priced manually.
   */
  function GetAssetUpdateStatus(a: Asset, now: int): (r: UpdateStatus)
    ensures r.status == Never <==> a.lastApiUpdate.None?
    ensures r.status == Fresh <==> a.lastApiUpdate.Some? && Day(a.lastApiUpdate.value) == Day(now)
    ensures r.lastUpdate == a.lastApiUpdate
    ensures r.needsUpdate <==> r.status != Fresh && a.apiSource != Some(Manual)
  {
    match a.lastApiUpdate
    case None => UpdateStatus(Never, None, a.apiSource != Some(Manual))
    case Some(t) =>
      var isFresh := Day(t) == Day(now);
      UpdateStatus(if isFresh then Fresh else Stale, Some(t), !isFresh && a.apiSource != Some(Manual))
  }

  /** For a service-priced asset the status and the selection agree. */
  lemma StatusAgreesWithSelection(a: Asset, now: int)
    requires ApiSourced(a)
    ensures GetAssetUpdateStatus(a, now).needsUpdate <==> GetAssetsNeedingUpdate([a], now) == [a]
  {
  }

  /**
   * For an asset without a price source the two disagree whenever its price
   * is not fresh: the status asks for an update that the selection never makes.
   */
  lemma StatusDivergesWithoutSource(a: Asset, now: int)
    requires a.apiSource.None?
    ensures GetAssetUpdateStatus(a, now).needsUpdate <==> GetAssetUpdateStatus(a, now).status != Fresh
    ensures GetAssetsNeedingUpdate([a], now) == []
  {
  }
}

=== FILE: seqs.dfy ===
/**
 * Sequence utilities standing in for the array methods the source chains
 * together: `Array.prototype.filter`, `indexOf`, and the
 * `filter((x, i, arr) => arr.indexOf(x) === i)` de-duplication idiom.
 */
module Seqs {

  /** The elements of `s` satisfying `p`, in their original order. */
  function Filter<T(!new)>(s: seq<T>, p: T -> bool): (r: seq<T>)
    ensures |r| <= |s|
    ensures forall x :: x in r <==> x in s && p(x)
  {
    if |s| == 0 then []
    else (if p(s[0]) then [s[0]] else []) + Filter(s[1..], p)
  }

  /** Filtering distributes over concatenation: order is preserved. */
  lemma {:induction false} FilterAppend<T(!new)>(a: seq<T>, b: seq<T>, p: T -> bool)
    ensures Filter(a + b, p) == Filter(a, p) + Filter(b, p)
  {
    if |a| == 0 {
      assert a + b == b;
    } else {
      assert (a + b)[1..] == a[1..] + b;
      FilterAppend(a[1..], b, p);
    }
  }

  /** Predicates that agree on the elements of `s` select the same subsequence. */
  lemma {:induction false} FilterCongruent<T(!new)>(s: seq<T>, p: T -> bool, q: T -> bool)
    requires forall x :: x in s ==> p(x) == q(x)
    ensures Filter(s, p) == Filter(s, q)
  {
    if |s| > 0 {
      assert forall x :: x in s[1..] ==> x in s;
      FilterCongruent(s[1..], p, q);
    }
  }

  /** A filter that every element passes returns the sequence itself. */
  lemma {:induction false} FilterKeepsAll<T(!new)>(s: seq<T>, p: T -> bool)
    requires forall x :: x in s ==> p(x)
    ensures Filter(s, p) == s
  {
    if |s| > 0 {
      assert forall x :: x in s[1..] ==> x in s;
      FilterKeepsAll(s[1..], p);
    }
  }

  /** A filter that no element passes returns the empty sequence. */
  lemma {:induction false} FilterDropsAll<T(!new)>(s: seq<T>, p: T -> bool)
    requires forall x :: x in s ==> !p(x)
    ensures Filter(s, p) == []
  {
    if |s| > 0 {
      assert forall x :: x in s[1..] ==> x in s;
      FilterDropsAll(s[1..], p);
    }
  }

  /** Filtering twice is filtering once by the conjunction. */
  lemma {:induction false} FilterFilter<T(!new)>(s: seq<T>, p: T -> bool, q: T -> bool, both: T -> bool)
    requires forall x :: x in s ==> both(x) == (q(x) && p(x))
    ensures Filter(Filter(s, q), p) == Filter(s, both)
  {
    if |s| > 0 {
      assert forall x :: x in s[1..] ==> x in s;
      FilterFilter(s[1..], p, q, both);
      var head := if q(s[0]) then [s[0]] else [];
      FilterAppend(head, Filter(s[1..], q), p);
    }
  }

  /** A filter and its complement split `s` into two parts that together hold every element once. */
  lemma {:induction false} FilterPartition<T(!new)>(s: seq<T>, p: T -> bool, notP: T -> bool)
    requires forall x :: notP(x) == !p(x)
    ensures multiset(Filter(s, p)) + multiset(Filter(s, notP)) == multiset(s)
  {
    if |s| > 0 {
      FilterPartition(s[1..], p, notP);
      assert s == [s[0]] + s[1..];
    }
  }

  /** The position of the first occurrence of `x` in `s` (JavaScript `indexOf` on a present element). */
  function IndexOf<T(==,!new)>(s: seq<T>, x: T): (i: nat)
    requires x in s
    ensures i < |s| && s[i] == x
    ensures x !in s[..i]
  {
    if s[0] == x then 0 else IndexOf(s[1..], x) + 1
  }

  /** No element occurs twice. */
  predicate Distinct<T(==,!new)>(s: seq<T>) {
    forall i, j :: 0 <= i < j < |s| ==> s[i] != s[j]
  }

  /**
   * The elements of `s[from..]` that are first occurrences in the whole of `s`,
   * that is, those kept by `filter((x, i, arr) => arr.indexOf(x) === i)`.
   */
  function FirstOccurrencesFrom<T(==,!new)>(s: seq<T>, from: nat): (r: seq<T>)
    requires from <= |s|
    decreases |s| - from
    ensures forall x :: x in r <==> x in s && IndexOf(s, x) >= from
    ensures Distinct(r)
    ensures forall i, j :: 0 <= i < j < |r| ==> IndexOf(s, r[i]) < IndexOf(s, r[j])
  {
    if from == |s| then []
    else
      var rest := FirstOccurrencesFrom(s, from + 1);
      if IndexOf(s, s[from]) == from then [s[from]] + rest else rest
  }

  /**
   * `s` without duplicates: every element of `s` once, ordered by first occurrence.
   */
  function Dedup<T(==,!new)>(s: seq<T>): (r: seq<T>)
    ensures forall x :: x in r <==> x in s
    ensures Distinct(r)
    ensures forall i, j :: 0 <= i < j < |r| ==> IndexOf(s, r[i]) < IndexOf(s, r[j])
  {
    FirstOccurrencesFrom(s, 0)
  }

  /**
   * A chain of steps `rel(i, xs[i], xs[i + 1], cs[i], cs[i + 1], rs[i])`
   * extended by one more step is still a chain.
   */
  lemma ChainExtends<S, C, R>(rel: (nat, S, S, C, C, R) -> bool, xs: seq<S>, cs: seq<C>, rs: seq<R>, x: S, c: C, r: R, k: nat)
    requires |xs| == k + 1 && |cs| == k + 1 && |rs| == k
    requires forall i :: 0 <= i < k ==> rel(i, xs[i], xs[i + 1], cs[i], cs[i + 1], rs[i])
    requires rel(k, xs[k], x, cs[k], c, r)
    ensures forall i :: 0 <= i < k + 1 ==>
              rel(i, (xs + [x])[i], (xs + [x])[i + 1], (cs + [c])[i], (cs + [c])[i + 1], (rs + [r])[i])
  {
    forall i | 0 <= i < k + 1
      ensures rel(i, (xs + [x])[i], (xs + [x])[i + 1], (cs + [c])[i], (cs + [c])[i + 1], (rs + [r])[i])
    {
      if i < k {
        assert (xs + [x])[i] == xs[i] && (xs + [x])[i + 1] == xs[i + 1];
        assert (cs + [c])[i] == cs[i] && (cs + [c])[i + 1] == cs[i + 1] && (rs + [r])[i] == rs[i];
      }
    }
  }

  /** Being a prefix is transitive. */
  lemma PrefixTrans<T>(a: seq<T>, b: seq<T>, c: seq<T>)
    requires |b| >= |a| && b[..|a|] == a
    requires |c| >= |b| && c[..|b|] == b
    ensures c[..|a|] == a
  {
    assert c[..|a|] == c[..|b|][..|a|];
  }

  /** Sequences concatenated in order. */
  function Flatten<T>(bs: seq<seq<T>>): seq<T> {
    if |bs| == 0 then [] else bs[0] + Flatten(bs[1..])
  }

  /** A concatenation has no duplicates iff its parts have none and share no element. */
  lemma DistinctAppend<T(!new)>(a: seq<T>, b: seq<T>)
    ensures Distinct(a + b) <==> Distinct(a) && Distinct(b) && forall x :: x in a ==> x !in b
  {
    if Distinct(a) && Distinct(b) && forall x :: x in a ==> x !in b {
      forall i, j | 0 <= i < j < |a + b|
        ensures (a + b)[i] != (a + b)[j]
      {
        if i < |a| && j >= |a| {
          assert (a + b)[i] in a && (a + b)[j] in b;
        }
      }
    }
    if Distinct(a + b) {
      forall i, j | 0 <= i < j < |a|
        ensures a[i] != a[j]
      {
        assert a[i] == (a + b)[i] && a[j] == (a + b)[j];
      }
      forall i, j | 0 <= i < j < |b|
        ensures b[i] != b[j]
      {
        assert b[i] == (a + b)[|a| + i] && b[j] == (a + b)[|a| + j];
      }
      forall i, j | 0 <= i < |a| && 0 <= j < |b|
        ensures a[i] != b[j]
      {
        assert a[i] == (a + b)[i] && b[j] == (a + b)[|a| + j];
      }
    }
  }

  /** Filtering never introduces a duplicate. */
  lemma {:induction false} FilterDistinct<T(!new)>(s: seq<T>, p: T -> bool)
    ensures Distinct(s) ==> Distinct(Filter(s, p))
  {
    if Distinct(s) && |s| > 0 {
      assert Distinct(s[1..]) by {
        forall i, j | 0 <= i < j < |s[1..]| ensures s[1..][i] != s[1..][j] {
          assert s[1..][i] == s[i + 1] && s[1..][j] == s[j + 1];
        }
      }
      FilterDistinct(s[1..], p);
      var head := if p(s[0]) then [s[0]] else [];
      assert forall j :: 0 <= j < |s[1..]| ==> s[1..][j] == s[j + 1];
      DistinctAppend(head, Filter(s[1..], p));
    }
  }
}

=== FILE: stock_service.dfy ===
/**
 * The stock quote client (`AlphaVantageService`): a single global
 * minimum-interval rate limiter, a per-symbol cache that expires at the end of
 * the caching day, and the `getQuote` decision procedure. The network is a
 * parameter mapping a symbol and the instant the request starts to the
 * response and how long it took.
 */
module StockService {
  import opened Wrappers
  import opened Calendar
  import opened Seqs
  import opened ApiTypes
  import opened UsageTracker

  /** Minimum spacing between the starts of two requests (5 per minute). */
  const MinRequestInterval: int := 12000
  /** Extra pause between the symbols of `getMultipleQuotes`. */
  const InterQuotePause: int := 1000
  /** The ledger cost of any attempted fetch, successful or not. */
  const FetchCost: nat := 1
  const Endpoint: string := "GLOBAL_QUOTE"
  /** The symbol `testConnection` asks for. */
  const TestSymbol: string := "AAPL"
  /** The request timeout given to the HTTP client. */
  const RequestTimeoutMs: nat := 10000
  /** The error the HTTP client throws when the timeout elapses. */
  const TimeoutMessage: string := "timeout of 10000ms exceeded"

  /** The part of `ProcessedStockPrice` the model keeps. */
  datatype StockQuote = StockQuote(price: int, lastUpdated: int)

  /** `PriceCacheEntry`. */
  datatype CacheEntry = CacheEntry(data: StockQuote, cachedAt: int, expiresAt: int)

  type PriceCache = map<string, CacheEntry>

  /**
   * The `Global Quote` member of a response: missing, present but failing in
   * `processQuoteResponse` (a field it dereferences is missing), or a quote.
   */
  datatype GlobalQuote = NoGlobalQuote | Unprocessable(reason: string) | Quote(quote: StockQuote)

  /** A response body: the two error fields the client inspects and the quote. */
  datatype QuoteBody = QuoteBody(errorMessage: Option<string>, note: Option<string>, globalQuote: GlobalQuote)

  datatype Response = Response(body: QuoteBody) | TransportError(message: string)

  /** What the network answered and how many milliseconds the round trip took. */
  datatype Fetch = Fetch(latency: nat, response: Response)

  type Network = (string, int) -> Fetch

  /** What the client receives: the response, unless the timeout elapsed first. */
  function Received(f: Fetch): (r: Response)
    ensures f.latency <= RequestTimeoutMs ==> r == f.response
    ensures f.latency > RequestTimeoutMs ==> r == TransportError(TimeoutMessage)
  {
    if f.latency > RequestTimeoutMs then TransportError(TimeoutMessage) else f.response
  }

  /** How long the client waits for a fetch: its latency, cut off at the timeout. */
  function Elapsed(f: Fetch): (d: nat)
    ensures d <= RequestTimeoutMs && d <= f.latency
    ensures d == f.latency || d == RequestTimeoutMs
  {
    if f.latency > RequestTimeoutMs then RequestTimeoutMs else f.latency
  }

  /** The service's state: its cache, the limiter's marker and the shared ledger. */
  datatype State = State(cache: PriceCache, lastRequestTime: int, ledger: Ledger)

  /**
   * The state at process start: nothing is cached yet and the limiter's
   * marker is at 0, so the first request is spaced from the epoch.
   */
  function InitialState(ledger: Ledger): (s: State)
    ensures s.ledger == ledger && s.lastRequestTime == 0
    ensures forall symbol, now :: !IsCacheValid(s.cache, symbol, now)
    ensures WellFormedCache(s.cache)
  {
    State(map[], 0, ledger)
  }

  /**
   * The outcome of one lookup: the new state, the result, the instant the call
   * returns, and the instant its fetch started (`None` when no fetch was made).
   */
  datatype Step = Step(state: State, result: PriceUpdateResult, doneAt: int, fetchedAt: Option<int>)

  /**
   * `rateLimit`: the instant the request may start, after waiting
   * `max(0, MinRequestInterval - (now - lastRequestTime))`.
   */
  function RateLimit(lastRequestTime: int, now: int): (acquire: int)
    ensures acquire >= now
    ensures acquire >= lastRequestTime + MinRequestInterval
    ensures acquire == now || acquire == lastRequestTime + MinRequestInterval
  {
    var sinceLast := now - lastRequestTime;
    var wait := if sinceLast < MinRequestInterval then MinRequestInterval - sinceLast else 0;
    now + wait
  }

  /** `cachePrice`: store the quote until the last millisecond of the caching day. */
  function CachePrice(cache: PriceCache, symbol: string, data: StockQuote, now: int): (c: PriceCache)
    ensures c.Keys == cache.Keys + {symbol}
    ensures c[symbol].data == data && c[symbol].cachedAt == now
    ensures c[symbol].expiresAt == EndOfDay(now)
    ensures forall s :: s in cache && s != symbol ==> c[s] == cache[s]
  {
    cache[symbol := CacheEntry(data, now, EndOfDay(now))]
  }

  /** `isCacheValid`: an entry exists, was cached today and has not expired. */
  predicate IsCacheValid(cache: PriceCache, symbol: string, now: int) {
    symbol in cache && Day(cache[symbol].cachedAt) == Day(now) && now < cache[symbol].expiresAt
  }

  /** Every entry expires at the end of the day it was cached, as `cachePrice` writes it. */
  ghost predicate WellFormedCache(cache: PriceCache) {
    forall s :: s in cache ==> cache[s].expiresAt == EndOfDay(cache[s].cachedAt)
  }

  /**
   * A freshly cached quote is valid exactly on its caching day, up to but
   * excluding the day's last millisecond.
   */
  lemma CachedQuoteValidity(cache: PriceCache, symbol: string, data: StockQuote, t: int, t': int)
    ensures IsCacheValid(CachePrice(cache, symbol, data, t), symbol, t')
            <==> StartOfDay(Day(t)) <= t' < StartOfDay(Day(t) + 1) - 1
  {
    if StartOfDay(Day(t)) <= t' < StartOfDay(Day(t) + 1) {
      DayOfInstant(t', Day(t));
    }
  }

  /**
   * In a cache written only by `CachePrice`, an entry is valid from the start
   * of its caching day up to, but excluding, that day's last millisecond.
   */
  lemma CacheValidWindow(cache: PriceCache, symbol: string, now: int)
    requires WellFormedCache(cache)
    ensures IsCacheValid(cache, symbol, now) <==>
              && symbol in cache
              && StartOfDay(Day(cache[symbol].cachedAt)) <= now < StartOfDay(Day(cache[symbol].cachedAt) + 1) - 1
  {
    if symbol in cache && StartOfDay(Day(cache[symbol].cachedAt)) <= now < StartOfDay(Day(cache[symbol].cachedAt) + 1) {
      DayOfInstant(now, Day(cache[symbol].cachedAt));
    }
  }

  /** Once an entry is invalid it stays invalid as time advances. */
  lemma InvalidStaysInvalid(cache: PriceCache, symbol: string, t1: int, t2: int)
    requires symbol in cache && cache[symbol].cachedAt <= t1 <= t2
    requires !IsCacheValid(cache, symbol, t1)
    ensures !IsCacheValid(cache, symbol, t2)
  {
    DayMonotone(cache[symbol].cachedAt, t1);
    DayMonotone(t1, t2);
  }

  /** `getCachedPrice`: the entry's quote, whether or not it has expired. */
  function GetCachedPrice(cache: PriceCache, symbol: string): (q: Option<StockQuote>)
    ensures q.Some? <==> symbol in cache
    ensures q.Some? ==> q.value == cache[symbol].data
  {
    if symbol in cache then Some(cache[symbol].data) else None
  }

  /**
   * The checks `getQuote` applies to a response, in the source's order: an
   * error message, then a rate-limit note, then a missing quote; otherwise the
   * processed quote.
   */
  function CheckResponse(r: Response): (q: Result<StockQuote>)
    ensures q.Success? <==>
              r.Response? && !TruthyString(r.body.errorMessage) && !TruthyString(r.body.note) && r.body.globalQuote.Quote?
    ensures q.Success? ==> q.value == r.body.globalQuote.quote
  {
    match r
    case TransportError(message) => Failure(message)
    case Response(body) =>
      if TruthyString(body.errorMessage) then Failure("API Error: " + body.errorMessage.value)
      else if TruthyString(body.note) then Failure("API call frequency limit reached. Please try again later.")
      else match body.globalQuote
        case NoGlobalQuote => Failure("Invalid response format from Alpha Vantage")
        case Unprocessable(reason) => Failure(reason)
        case Quote(quote) => Success(quote)
  }

  function QuoteCall(symbol: string, success: bool, fromCache: bool, cost: nat): CallInfo {
    CallInfo(AlphaVantage, Endpoint, Some(symbol), success, fromCache, cost)
  }

  /**
   * `getQuote`. A valid cache entry (unless refresh is forced) answers at no
   * cost and without touching the limiter. Otherwise the limiter is acquired
   * and the fetch made; a good quote is cached, and a failure falls back to
   * any entry for the symbol, even an expired one. Every path records exactly
   * one ledger entry.
   */
  function GetQuote(st: State, symbol: string, forceRefresh: bool, now: int, net: Network): (s: Step)
    // one record per lookup, earlier records untouched
    ensures |s.state.ledger| == |st.ledger| + 1
    ensures s.state.ledger[..|st.ledger|] == st.ledger
    ensures s.state.ledger[|st.ledger|].provider == AlphaVantage
    ensures s.state.ledger[|st.ledger|].symbol == Some(symbol)
    ensures s.result.symbol == symbol
    ensures s.doneAt >= now
    // the cache-hit path
    ensures s.fetchedAt.None? <==> !forceRefresh && IsCacheValid(st.cache, symbol, now)
    ensures s.fetchedAt.None? ==>
              && s.state.cache == st.cache && s.state.lastRequestTime == st.lastRequestTime
              && Unstamp(s.state.ledger[|st.ledger|]) == QuoteCall(symbol, true, true, 0)
              && s.result.success && s.result.fromCache
              && s.result.price == Some(st.cache[symbol].data.price)
              && s.result.lastUpdated == Some(st.cache[symbol].data.lastUpdated)
              && s.doneAt == now && s.state.ledger[|st.ledger|].timestamp == now
    // the fetch path: spaced from the previous request, one costed record
    ensures s.fetchedAt.Some? ==>
              && s.fetchedAt.value >= now
              && s.fetchedAt.value >= st.lastRequestTime + MinRequestInterval
              && s.state.lastRequestTime == s.fetchedAt.value
              && s.state.ledger[|st.ledger|].cost == FetchCost
              && !s.state.ledger[|st.ledger|].fromCache
              && s.state.ledger[|st.ledger|].success == s.result.success
              && s.state.ledger[|st.ledger|].timestamp == s.doneAt
    ensures s.fetchedAt.Some? ==>
              && s.fetchedAt.value == RateLimit(st.lastRequestTime, now)
              && s.doneAt == s.fetchedAt.value + Elapsed(net(symbol, s.fetchedAt.value))
              && (s.result.success <==> CheckResponse(Received(net(symbol, s.fetchedAt.value))).Success?)
    ensures s.fetchedAt.Some? && s.result.success ==>
              && !s.result.fromCache
              && s.state.cache.Keys == st.cache.Keys + {symbol}
              && s.state.cache[symbol].data == CheckResponse(Received(net(symbol, s.fetchedAt.value))).value
              && s.state.cache[symbol].cachedAt == s.doneAt
              && s.state.cache[symbol].expiresAt == EndOfDay(s.doneAt)
              && s.result.price == Some(s.state.cache[symbol].data.price)
              && s.result.lastUpdated == Some(s.state.cache[symbol].data.lastUpdated)
              && (forall x :: x in st.cache && x != symbol ==> s.state.cache[x] == st.cache[x])
    ensures s.fetchedAt.Some? && !s.result.success ==>
              var message := CheckResponse(Received(net(symbol, s.fetchedAt.value))).error;
              && s.state.cache == st.cache
              && s.result.error == Some(if symbol in st.cache then "API error: " + message + " (showing cached data)" else message)
              && (s.result.fromCache <==> symbol in st.cache)
              && s.result.price == (if symbol in st.cache then Some(st.cache[symbol].data.price) else None)
              && s.result.lastUpdated == (if symbol in st.cache then Some(st.cache[symbol].data.lastUpdated) else None)
    ensures WellFormedCache(st.cache) ==> WellFormedCache(s.state.cache)
  {
    var a := Attempt(st, symbol, forceRefresh, now, net);
    Step(State(a.cache, a.lastRequestTime, RecordCall(st.ledger, a.call, a.doneAt)), a.result, a.doneAt, a.fetchedAt)
  }

  /** What one lookup decides, before its single ledger record is written. */
  datatype Outcome = Outcome(cache: PriceCache, lastRequestTime: int, result: PriceUpdateResult, doneAt: int,
                             fetchedAt: Option<int>, call: CallInfo)

  /**
   * The branches of `getQuote`: the cache hit, the good quote and the
   * failure, each with the record it makes and the instant it makes it.
   */
  function Attempt(st: State, symbol: string, forceRefresh: bool, now: int, net: Network): (o: Outcome)
    ensures o.result.symbol == symbol && o.call.symbol == Some(symbol) && o.call.provider == AlphaVantage
    ensures o.doneAt >= now
    ensures o.fetchedAt.None? <==> !forceRefresh && IsCacheValid(st.cache, symbol, now)
    ensures o.fetchedAt.None? ==> o.lastRequestTime == st.lastRequestTime && o.doneAt == now
    ensures o.fetchedAt.Some? ==> o.lastRequestTime == o.fetchedAt.value && o.fetchedAt.value >= now
                                  && o.fetchedAt.value >= st.lastRequestTime + MinRequestInterval
                                  && o.fetchedAt.value == RateLimit(st.lastRequestTime, now)
                                  && o.doneAt == o.fetchedAt.value + Elapsed(net(symbol, o.fetchedAt.value))
    ensures WellFormedCache(st.cache) ==> WellFormedCache(o.cache)
  {
    if !forceRefresh && IsCacheValid(st.cache, symbol, now) then
      var cached := st.cache[symbol].data;
      Outcome(st.cache, st.lastRequestTime,
              PriceUpdateResult(true, symbol, Some(cached.price), None, Some(cached.lastUpdated), true),
              now, None, QuoteCall(symbol, true, true, 0))
    else
      var acquire := RateLimit(st.lastRequestTime, now);
      var fetch := net(symbol, acquire);
      var done := acquire + Elapsed(fetch);
      match CheckResponse(Received(fetch))
      case Success(quote) =>
        Outcome(CachePrice(st.cache, symbol, quote, done), acquire,
                PriceUpdateResult(true, symbol, Some(quote.price), None, Some(quote.lastUpdated), false),
                done, Some(acquire), QuoteCall(symbol, true, false, FetchCost))
      case Failure(message) =>
        var result :=
          match GetCachedPrice(st.cache, symbol)
          case Some(stale) =>
            PriceUpdateResult(false, symbol, Some(stale.price),
                              Some("API error: " + message + " (showing cached data)"), Some(stale.lastUpdated), true)
          case None =>
            PriceUpdateResult(false, symbol, None, Some(message), None, false);
        Outcome(st.cache, acquire, result, done, Some(acquire), QuoteCall(symbol, false, false, FetchCost))
  }

  /** Two lookups made one after the other start their fetches at least the minimum interval apart. */
  lemma ConsecutiveFetchesSpaced(st: State, a: string, b: string, fa: bool, fb: bool, t0: int, t1: int, net: Network)
    ensures var first := GetQuote(st, a, fa, t0, net);
            var second := GetQuote(first.state, b, fb, t1, net);
            first.fetchedAt.Some? && second.fetchedAt.Some? ==>
              second.fetchedAt.value >= first.fetchedAt.value + MinRequestInterval
  {
  }

  /**
   * The first lookup after process start always fetches, and waits for the
   * limiter only when the clock reads less than one interval past the epoch.
   */
  lemma FirstLookupFetches(ledger: Ledger, symbol: string, forceRefresh: bool, now: int, net: Network)
    ensures GetQuote(InitialState(ledger), symbol, forceRefresh, now, net).fetchedAt
            == Some(if now < MinRequestInterval then MinRequestInterval else now)
  {
  }

  /** A lookup made later the same day after a successful fetch is answered from the cache at no cost. */
  lemma SameDayLookupHitsCache(st: State, symbol: string, f: bool, t0: int, t1: int, net: Network)
    requires GetQuote(st, symbol, f, t0, net).fetchedAt.Some? && GetQuote(st, symbol, f, t0, net).result.success
    requires GetQuote(st, symbol, f, t0, net).doneAt <= t1
    requires Day(t1) == Day(GetQuote(st, symbol, f, t0, net).doneAt) && t1 < EndOfDay(t1)
    ensures GetQuote(GetQuote(st, symbol, f, t0, net).state, symbol, false, t1, net).fetchedAt.None?
    ensures GetQuote(GetQuote(st, symbol, f, t0, net).state, symbol, false, t1, net).result.price
            == GetQuote(st, symbol, f, t0, net).result.price
  {
  }

  /** The outcome of a run of lookups. */
  datatype Run = Run(state: State, results: seq<PriceUpdateResult>, doneAt: int)

  /**
   * Lookup `k` of a run over `symbols`: `getQuote` from state `before` at
   * instant `t` gives `result` and the state `after`, and the next lookup
   * starts at `next`, after the one-second pause when the symbol's first
   * occurrence is not the last position.
   */
  predicate Lookup(symbols: seq<string>, forceRefresh: bool, net: Network, k: nat,
                   before: State, after: State, t: int, next: int, result: PriceUpdateResult) {
    && k < |symbols|
    && var step := GetQuote(before, symbols[k], forceRefresh, t, net);
       && result == step.result
       && after == step.state
       && next == step.doneAt + (if IndexOf(symbols, symbols[k]) < |symbols| - 1 then InterQuotePause else 0)
  }

  /** One iteration of `getMultipleQuotes`: lookup `k` and the instant the next one starts. */
  method NextLookup(state: State, symbols: seq<string>, k: nat, forceRefresh: bool, clock: int, net: Network)
    returns (step: Step, next: int)
    requires k < |symbols|
    ensures Lookup(symbols, forceRefresh, net, k, state, step.state, clock, next, step.result)
    ensures step.result.symbol == symbols[k]
    ensures |step.state.ledger| == |state.ledger| + 1
    ensures step.state.ledger[..|state.ledger|] == state.ledger
    ensures step.state.ledger[|state.ledger|].symbol == Some(symbols[k])
    ensures next >= clock
    ensures step.state.lastRequestTime >= state.lastRequestTime
    ensures WellFormedCache(state.cache) ==> WellFormedCache(step.state.cache)
  {
    step := GetQuote(state, symbols[k], forceRefresh, clock, net);
    next := if IndexOf(symbols, symbols[k]) < |symbols| - 1 then step.doneAt + InterQuotePause else step.doneAt;
  }

  /**
   * `getMultipleQuotes`: one `getQuote` per symbol, in order, each followed
   * by a one-second pause unless the symbol's first occurrence is the last
   * position. One result and one ledger record per symbol, in input order.
   * The ghost `states` and `clocks` are the state and instant before each
   * lookup, and after the last.
   */
  method GetMultipleQuotes(st: State, symbols: seq<string>, forceRefresh: bool, now: int, net: Network)
    returns (r: Run, ghost states: seq<State>, ghost clocks: seq<int>)
    ensures |r.results| == |symbols|
    ensures forall i :: 0 <= i < |symbols| ==> r.results[i].symbol == symbols[i]
    ensures |r.state.ledger| == |st.ledger| + |symbols|
    ensures r.state.ledger[..|st.ledger|] == st.ledger
    ensures forall i :: |st.ledger| <= i < |r.state.ledger| ==> r.state.ledger[i].symbol == Some(symbols[i - |st.ledger|])
    ensures r.doneAt >= now
    ensures r.state.lastRequestTime >= st.lastRequestTime
    ensures WellFormedCache(st.cache) ==> WellFormedCache(r.state.cache)
    // the run is the chain of single lookups
    ensures |states| == |symbols| + 1 && |clocks| == |symbols| + 1
    ensures states[0] == st && clocks[0] == now
    ensures states[|symbols|] == r.state && clocks[|symbols|] == r.doneAt
    ensures forall k :: 0 <= k < |symbols| ==>
              Lookup(symbols, forceRefresh, net, k, states[k], states[k + 1], clocks[k], clocks[k + 1], r.results[k])
  {
    var state := st;
    var results: seq<PriceUpdateResult> := [];
    var clock := now;
    states, clocks := [st], [now];
    ghost var lookup := (k: nat, before: State, after: State, t: int, next: int, result: PriceUpdateResult) =>
      Lookup(symbols, forceRefresh, net, k, before, after, t, next, result);
    var k := 0;
    while k < |symbols|
      invariant k <= |symbols|
      invariant |results| == k
      invariant forall i :: 0 <= i < k ==> results[i].symbol == symbols[i]
      invariant |state.ledger| == |st.ledger| + k
      invariant state.ledger[..|st.ledger|] == st.ledger
      invariant forall i :: |st.ledger| <= i < |state.ledger| ==> state.ledger[i].symbol == Some(symbols[i - |st.ledger|])
      invariant clock >= now
      invariant state.lastRequestTime >= st.lastRequestTime
      invariant WellFormedCache(st.cache) ==> WellFormedCache(state.cache)
      invariant |states| == k + 1 && |clocks| == k + 1
      invariant states[0] == st && clocks[0] == now && states[k] == state && clocks[k] == clock
      invariant forall i :: 0 <= i < k ==> lookup(i, states[i], states[i + 1], clocks[i], clocks[i + 1], results[i])
    {
      var step, next := NextLookup(state, symbols, k, forceRefresh, clock, net);
      PrefixTrans(st.ledger, state.ledger, step.state.ledger);
      assert forall i :: |st.ledger| <= i < |state.ledger| ==> step.state.ledger[i] == step.state.ledger[..|state.ledger|][i];
      assert lookup(k, state, step.state, clock, next, step.result);
      ChainExtends(lookup, states, clocks, results, step.state, next, step.result, k);
      results := results + [step.result];
      clock := next;
      state := step.state;
      states, clocks := states + [state], clocks + [clock];
      k := k + 1;
    }
    r := Run(state, results, clock);
  }

  /**
   * `clearCache`: a non-empty symbol removes only that entry; no symbol (or
   * the empty string, which is falsy) empties the cache. The ledger and the
   * limiter are untouched.
   */
  function ClearCache(st: State, symbol: Option<string>): (s: State)
    ensures s.ledger == st.ledger && s.lastRequestTime == st.lastRequestTime
    ensures TruthyString(symbol) ==> s.cache.Keys == st.cache.Keys - {symbol.value}
    ensures TruthyString(symbol) ==> forall x :: x in s.cache ==> s.cache[x] == st.cache[x]
    ensures !TruthyString(symbol) ==> s.cache == map[]
  {
    if TruthyString(symbol) then st.(cache := st.cache - {symbol.value}) else st.(cache := map[])
  }

  datatype CacheStatus = CacheStatus(cachedAt: int, isValid: bool)

  /** `getCacheStatus`: each cached symbol with its caching time and current validity. */
  function GetCacheStatus(st: State, now: int): (m: map<string, CacheStatus>)
    ensures m.Keys == st.cache.Keys
    ensures forall s :: s in m ==> m[s].cachedAt == st.cache[s].cachedAt && (m[s].isValid <==> IsCacheValid(st.cache, s, now))
  {
    map s | s in st.cache :: CacheStatus(st.cache[s].cachedAt, IsCacheValid(st.cache, s, now))
  }

  /**
   * `testConnection`: a normal lookup of the test symbol (refresh not forced,
   * so a valid cache entry answers it), reporting its success.
   */
  function TestConnection(st: State, now: int, net: Network): (r: (State, bool))
    ensures |r.0.ledger| == |st.ledger| + 1
    ensures r.0.ledger[|st.ledger|].symbol == Some(TestSymbol)
    ensures r.1 == r.0.ledger[|st.ledger|].success
    // refresh is not forced: a valid entry answers without a request
    ensures IsCacheValid(st.cache, TestSymbol, now) ==>
              && r.1 && r.0.cache == st.cache && r.0.lastRequestTime == st.lastRequestTime
              && r.0.ledger[|st.ledger|].fromCache
    ensures !IsCacheValid(st.cache, TestSymbol, now) ==>
              && r.0.lastRequestTime == RateLimit(st.lastRequestTime, now)
              && !r.0.ledger[|st.ledger|].fromCache
              && (r.1 <==> CheckResponse(Received(net(TestSymbol, RateLimit(st.lastRequestTime, now)))).Success?)
  {
    var step := GetQuote(st, TestSymbol, false, now, net);
    (step.state, step.result.success)
  }
}

=== FILE: usage_tracker.dfy ===
/**
 * The API-usage ledger and the advisor that reads it (`ApiUsageTracker`).
 * The ledger is an append-only sequence of stamped call records; every query
 * is a filter, a sum or a maximum over it, evaluated at an explicit instant
 * `now`. Persistence to local storage is reduced to the loaded value.
 */
module UsageTracker {
  import opened Wrappers
  import opened Calendar
  import opened Seqs

  datatype Provider = AlphaVantage | CoinGecko

  /** A call record before it is stamped (`Omit<ApiCall, 'timestamp'>`). */
  datatype CallInfo = CallInfo(
    provider: Provider,
    endpoint: string,
    symbol: Option<string>,
    success: bool,
    fromCache: bool,
    cost: nat)

  /** One ledger record: a price lookup, served from the network or the cache. */
  datatype ApiCall = ApiCall(
    timestamp: int,
    provider: Provider,
    endpoint: string,
    symbol: Option<string>,
    success: bool,
    fromCache: bool,
    cost: nat)

  type Ledger = seq<ApiCall>

  /** The stock provider's free-tier quota, which the tracker uses as the daily limit. */
  const DailyLimit: nat := 500
  /** The stock provider's free-tier calls per minute. */
  const MinuteLimit: nat := 5
  /** Records older than this are pruned at start-up. */
  const RetentionMs: int := 7 * MsPerDay
  /** Number of days in the usage history, today included. */
  const HistoryDays: nat := 7
  /** The next scheduled update is placed at 09:30 on the following day. */
  const ScheduledUpdateOffsetMs: int := 9 * MsPerHour + 30 * MsPerMinute

  function Stamp(info: CallInfo, now: int): ApiCall {
    ApiCall(now, info.provider, info.endpoint, info.symbol, info.success, info.fromCache, info.cost)
  }

  function Unstamp(c: ApiCall): CallInfo {
    CallInfo(c.provider, c.endpoint, c.symbol, c.success, c.fromCache, c.cost)
  }

  /** Stamping keeps every field of the call and adds only the time. */
  lemma StampRoundTrip(info: CallInfo, c: ApiCall)
    ensures Unstamp(Stamp(info, c.timestamp)) == info
    ensures Stamp(Unstamp(c), c.timestamp) == c
  {
  }

  /** `recordCall`: append exactly one record, stamped with the current time. */
  function RecordCall(ledger: Ledger, info: CallInfo, now: int): (r: Ledger)
    ensures |r| == |ledger| + 1
    ensures r[..|ledger|] == ledger
    ensures r[|ledger|].timestamp == now
    ensures Unstamp(r[|ledger|]) == info
  {
    ledger + [Stamp(info, now)]
  }

  /** Total quota units consumed by `calls`. */
  function SumCost(calls: Ledger): nat {
    if |calls| == 0 then 0 else calls[0].cost + SumCost(calls[1..])
  }

  lemma {:induction false} SumCostAppend(a: Ledger, b: Ledger)
    ensures SumCost(a + b) == SumCost(a) + SumCost(b)
  {
    if |a| == 0 {
      assert a + b == b;
    } else {
      assert (a + b)[1..] == a[1..] + b;
      SumCostAppend(a[1..], b);
    }
  }

  /** Every record's cost is part of the sum, and the sum is zero exactly when every cost is. */
  lemma {:induction false} SumCostBounds(calls: Ledger)
    ensures forall c :: c in calls ==> c.cost <= SumCost(calls)
    ensures SumCost(calls) == 0 <==> forall c :: c in calls ==> c.cost == 0
  {
    if |calls| > 0 {
      SumCostBounds(calls[1..]);
      assert forall c :: c in calls ==> c == calls[0] || c in calls[1..];
    }
  }

  /** Keeping only some records never raises the sum. */
  lemma {:induction false} SumCostFilter(calls: Ledger, p: ApiCall -> bool)
    ensures SumCost(Filter(calls, p)) <= SumCost(calls)
  {
    if |calls| > 0 {
      SumCostFilter(calls[1..], p);
      SumCostAppend(if p(calls[0]) then [calls[0]] else [], Filter(calls[1..], p));
    }
  }

  /** The records that consumed quota: those not served from the cache. */
  function Billed(calls: Ledger): (r: Ledger)
    ensures forall c :: c in r <==> c in calls && !c.fromCache
    ensures SumCost(r) <= SumCost(calls)
  {
    SumCostFilter(calls, (c: ApiCall) => !c.fromCache);
    Filter(calls, (c: ApiCall) => !c.fromCache)
  }

  /** `getTodaysCalls`: the records whose calendar date is today's. */
  function TodaysCalls(ledger: Ledger, now: int): (r: Ledger)
    ensures forall c :: c in r <==> c in ledger && Day(c.timestamp) == Day(now)
    ensures SumCost(r) <= SumCost(ledger)
  {
    SumCostFilter(ledger, (c: ApiCall) => Day(c.timestamp) == Day(now));
    Filter(ledger, (c: ApiCall) => Day(c.timestamp) == Day(now))
  }

  /** `getProviderCallsToday`: today's records of one provider. */
  function ProviderCallsToday(ledger: Ledger, now: int, p: Provider): (r: Ledger)
    ensures forall c :: c in r <==> c in ledger && Day(c.timestamp) == Day(now) && c.provider == p
  {
    Filter(TodaysCalls(ledger, now), (c: ApiCall) => c.provider == p)
  }

  /** Every record of today belongs to exactly one of the two providers. */
  lemma ProvidersSplitToday(ledger: Ledger, now: int)
    ensures |ProviderCallsToday(ledger, now, AlphaVantage)| + |ProviderCallsToday(ledger, now, CoinGecko)|
            == |TodaysCalls(ledger, now)|
  {
    var today := TodaysCalls(ledger, now);
    FilterPartition(today, (c: ApiCall) => c.provider == AlphaVantage, (c: ApiCall) => c.provider == CoinGecko);
    assert |multiset(today)| == |today|;
  }

  /**
   * Quota units consumed today: every non-cached record of today counts in
   * full, the total is zero exactly when none of them cost anything, and no
   * other record adds to it.
   */
  function TotalCallsToday(ledger: Ledger, now: int): (t: nat)
    ensures forall c :: c in ledger && Day(c.timestamp) == Day(now) && !c.fromCache ==> c.cost <= t
    ensures t == 0 <==> forall c :: c in ledger && Day(c.timestamp) == Day(now) && !c.fromCache ==> c.cost == 0
    ensures t <= SumCost(ledger)
  {
    SumCostBounds(Billed(TodaysCalls(ledger, now)));
    SumCost(Billed(TodaysCalls(ledger, now)))
  }

  /** Quota units left today: the limit minus today's total, floored at zero. */
  function RemainingCallsToday(ledger: Ledger, now: int): (r: nat)
    ensures r <= DailyLimit
    ensures r == 0 <==> TotalCallsToday(ledger, now) >= DailyLimit
    ensures TotalCallsToday(ledger, now) <= DailyLimit ==> TotalCallsToday(ledger, now) + r == DailyLimit
  {
    var total := TotalCallsToday(ledger, now);
    if DailyLimit - total > 0 then DailyLimit - total else 0
  }

  /** Recording a call today raises today's total by its cost, unless it was served from the cache. */
  lemma RecordCallTotal(ledger: Ledger, info: CallInfo, now: int)
    ensures TotalCallsToday(RecordCall(ledger, info, now), now)
            == TotalCallsToday(ledger, now) + (if info.fromCache then 0 else info.cost)
  {
    var c := Stamp(info, now);
    var isToday := (x: ApiCall) => Day(x.timestamp) == Day(now);
    var notCached := (x: ApiCall) => !x.fromCache;
    FilterAppend(ledger, [c], isToday);
    assert Filter([c], isToday) == [c];
    FilterAppend(TodaysCalls(ledger, now), [c], notCached);
    SumCostAppend(Billed(TodaysCalls(ledger, now)), Filter([c], notCached));
  }

  datatype CostAnalysis = CostAnalysis(
    testConnection: nat,
    singleRefresh: nat,
    allRefresh: nat,
    nextScheduledUpdate: Option<int>)

  datatype UsageStats = UsageStats(
    today: Ledger,
    totalCallsToday: nat,
    remainingCallsToday: nat,
    dailyLimit: nat,
    resetTime: int,
    costAnalysis: CostAnalysis)

  /** `getNextScheduledUpdate`: the static placeholder of 09:30 tomorrow. */
  function NextScheduledUpdate(now: int): (t: int)
    ensures Day(t) == Day(now) + 1
    ensures t - StartOfDay(Day(t)) == ScheduledUpdateOffsetMs
  {
    DayOfInstant(StartOfDay(Day(now) + 1) + ScheduledUpdateOffsetMs, Day(now) + 1);
    StartOfDay(Day(now) + 1) + ScheduledUpdateOffsetMs
  }

  /**
   * `calculateCostAnalysis`: the stock count is hard-coded to 2 in the
   * source (the two demo symbols), not derived from the portfolio.
   */
  function CalculateCostAnalysis(now: int): (a: CostAnalysis)
    ensures a.testConnection == 1 && a.singleRefresh == 1 && a.allRefresh == 2
    ensures a.nextScheduledUpdate.Some? && Day(a.nextScheduledUpdate.value) == Day(now) + 1
    ensures a.nextScheduledUpdate.value - StartOfDay(Day(now) + 1) == ScheduledUpdateOffsetMs
  {
    CostAnalysis(1, 1, 2, Some(NextScheduledUpdate(now)))
  }

  /** `getTodaysStats`. */
  function TodaysStats(ledger: Ledger, now: int): (s: UsageStats)
    ensures forall c :: c in s.today <==> c in ledger && Day(c.timestamp) == Day(now)
    ensures s.totalCallsToday == TotalCallsToday(ledger, now)
    ensures s.costAnalysis == CalculateCostAnalysis(now)
    ensures s.dailyLimit == DailyLimit
    ensures s.remainingCallsToday <= s.dailyLimit
    ensures s.remainingCallsToday == 0 <==> s.totalCallsToday >= s.dailyLimit
    ensures s.totalCallsToday <= s.dailyLimit ==> s.totalCallsToday + s.remainingCallsToday == s.dailyLimit
    ensures now < s.resetTime && Day(s.resetTime) == Day(now) + 1 && s.resetTime == StartOfDay(Day(s.resetTime))
  {
    DayOfInstant(StartOfDay(Day(now) + 1), Day(now) + 1);
    UsageStats(
      TodaysCalls(ledger, now),
      TotalCallsToday(ledger, now),
      RemainingCallsToday(ledger, now),
      DailyLimit,
      StartOfDay(Day(now) + 1),
      CalculateCostAnalysis(now))
  }

  datatype Level = Safe | Warning | Critical

  /** Today's total as a percentage of the daily limit (exact, where the source uses a float). */
  function DailyPercentage(total: nat): (pct: real)
    ensures pct * DailyLimit as real == total as real * 100.0
  {
    total as real / DailyLimit as real * 100.0
  }

  /**
   * The daily bucket: `critical` above 90 percent, `warning` above 75, else
   * `safe`. In whole calls: critical from 451, warning from 376 to 450.
   */
  function DailyLevel(total: nat): (l: Level)
    ensures l == Critical <==> total > 450
    ensures l == Warning <==> 375 < total <= 450
    ensures l == Safe <==> total <= 375
  {
    var pct := DailyPercentage(total);
    if pct > 90.0 then Critical else if pct > 75.0 then Warning else Safe
  }

  /** The per-minute bucket: `critical` at the minute limit, `warning` one below it. */
  function MinuteLevel(n: nat): (l: Level)
    ensures l == Critical <==> n >= MinuteLimit
    ensures l == Warning <==> n == MinuteLimit - 1
    ensures l == Safe <==> n < MinuteLimit - 1
  {
    if n >= 5 then Critical else if n >= 4 then Warning else Safe
  }

  /** A non-cached stock-provider record stamped strictly within the minute before `now`. */
  predicate InMinuteWindow(c: ApiCall, now: int) {
    c.timestamp > now - MsPerMinute && c.provider == AlphaVantage && !c.fromCache
  }

  /**
   * Quota units of non-cached stock-provider records stamped strictly within
   * the last minute. Unlike the daily total this scans the whole ledger.
   */
  function CallsInLastMinute(ledger: Ledger, now: int): (n: nat)
    ensures forall c :: c in ledger && InMinuteWindow(c, now) ==> c.cost <= n
    ensures n == 0 <==> forall c :: c in ledger && InMinuteWindow(c, now) ==> c.cost == 0
    ensures n <= SumCost(ledger)
  {
    var inWindow := (c: ApiCall) => InMinuteWindow(c, now);
    SumCostFilter(ledger, inWindow);
    SumCostBounds(Filter(ledger, inWindow));
    SumCost(Filter(ledger, inWindow))
  }

  /** A record contributes to the per-minute count exactly while it is under a minute old. */
  lemma RecordCallMinute(ledger: Ledger, info: CallInfo, t: int, now: int)
    ensures CallsInLastMinute(RecordCall(ledger, info, t), now)
            == CallsInLastMinute(ledger, now)
               + (if t > now - MsPerMinute && info.provider == AlphaVantage && !info.fromCache then info.cost else 0)
  {
    var c := Stamp(info, t);
    var inWindow := (c: ApiCall) => InMinuteWindow(c, now);
    FilterAppend(ledger, [c], inWindow);
    SumCostAppend(Filter(ledger, inWindow), Filter([c], inWindow));
  }

  datatype RateLimitStatus = RateLimitStatus(
    dailyStatus: Level,
    dailyPercentage: real,
    minuteStatus: Level,
    callsInLastMinute: nat)

  /** `getRateLimitStatus`. */
  function GetRateLimitStatus(ledger: Ledger, now: int): (s: RateLimitStatus)
    ensures s.dailyPercentage * DailyLimit as real == TotalCallsToday(ledger, now) as real * 100.0
    ensures s.callsInLastMinute == CallsInLastMinute(ledger, now)
    ensures s.dailyStatus == Critical <==> TotalCallsToday(ledger, now) > 450
    ensures s.dailyStatus == Warning <==> 375 < TotalCallsToday(ledger, now) <= 450
    ensures s.minuteStatus == Critical <==> s.callsInLastMinute >= MinuteLimit
    ensures s.minuteStatus == Warning <==> s.callsInLastMinute == MinuteLimit - 1
  {
    var total := TodaysStats(ledger, now).totalCallsToday;
    var n := CallsInLastMinute(ledger, now);
    RateLimitStatus(DailyLevel(total), DailyPercentage(total), MinuteLevel(n), n)
  }

  /** A live-data indicator for one symbol. */
  datatype Indicator = Indicator(isLive: bool, lastUpdate: int, provider: Provider)

  /** Fold one record into the indicators: a newer record of a symbol replaces the older one. */
  function Absorb(m: map<string, Indicator>, c: ApiCall): map<string, Indicator> {
    if TruthyString(c.symbol) && (c.symbol.value !in m || c.timestamp > m[c.symbol.value].lastUpdate)
    then m[c.symbol.value := Indicator(true, c.timestamp, c.provider)]
    else m
  }

  /**
   * The indicators built from `calls` in order: one per non-empty symbol, carrying the
   * latest timestamp among that symbol's records and the provider of a record at that time.
   */
  function IndicatorsFrom(calls: Ledger): (m: map<string, Indicator>)
    decreases |calls|
    ensures Summarises(m, calls)
  {
    if |calls| == 0 then map[]
    else
      var init := calls[..|calls| - 1];
      assert calls == init + [calls[|calls| - 1]];
      AbsorbSummarises(IndicatorsFrom(init), init, calls[|calls| - 1]);
      Absorb(IndicatorsFrom(init), calls[|calls| - 1])
  }

  /**
   * `m` holds one live indicator per non-empty symbol of `calls`, with the
   * latest timestamp among that symbol's records and the provider of a record
   * made at that time.
   */
  ghost predicate Summarises(m: map<string, Indicator>, calls: Ledger) {
    && (forall k :: k in m <==> k != "" && exists c :: c in calls && c.symbol == Some(k))
    && (forall k :: k in m ==> m[k].isLive)
    && (forall k, c :: k in m && c in calls && c.symbol == Some(k) ==> c.timestamp <= m[k].lastUpdate)
    && (forall k :: k in m ==>
          exists c :: c in calls && c.symbol == Some(k) && c.timestamp == m[k].lastUpdate && c.provider == m[k].provider)
  }

  /** Absorbing one more record keeps the indicators a summary of the longer ledger. */
  lemma AbsorbSummarises(m: map<string, Indicator>, calls: Ledger, c: ApiCall)
    requires Summarises(m, calls)
    ensures Summarises(Absorb(m, c), calls + [c])
  {
    assert forall x :: x in calls + [c] <==> x in calls || x == c;
  }

  /** `getLiveDataIndicators`: indicators from today's successful, non-cached records. */
  function LiveDataIndicators(ledger: Ledger, now: int): (m: map<string, Indicator>)
    ensures forall k :: k in m <==>
              k != "" && exists c :: c in ledger && Day(c.timestamp) == Day(now) && c.success && !c.fromCache && c.symbol == Some(k)
    ensures forall k :: k in m ==> m[k].isLive
    ensures forall k, c :: k in m && c in ledger && Day(c.timestamp) == Day(now) && c.success && !c.fromCache && c.symbol == Some(k)
              ==> c.timestamp <= m[k].lastUpdate
    ensures forall k :: k in m ==>
              exists c :: c in ledger && Day(c.timestamp) == Day(now) && c.success && !c.fromCache && c.symbol == Some(k)
                          && c.timestamp == m[k].lastUpdate && c.provider == m[k].provider
  {
    IndicatorsFrom(Filter(TodaysCalls(ledger, now), (c: ApiCall) => c.success && !c.fromCache))
  }

  datatype Operation = Test | Single | All

  datatype CostEstimate = CostEstimate(cost: nat, affordable: bool, description: string)

  /**
   * `estimateOperationCost`: every operation costs at least one unit, so it is
   * affordable exactly when performing it keeps today's total within the limit.
   */
  function EstimateOperationCost(ledger: Ledger, now: int, op: Operation): (e: CostEstimate)
    ensures e.cost >= 1
    ensures op != All ==> e.cost == 1
    ensures op == All ==> e.cost == 2
    ensures e.affordable <==> TotalCallsToday(ledger, now) + e.cost <= DailyLimit
  {
    var stats := TodaysStats(ledger, now);
    var analysis := stats.costAnalysis;
    var (cost, description) :=
      match op
      case Test => (analysis.testConnection, "Test API connection (1 call)")
      case Single => (analysis.singleRefresh, "Refresh 1 stock (1 call)")
      case All => (analysis.allRefresh, "Refresh all stocks (2 calls)");
    CostEstimate(cost, cost <= stats.remainingCallsToday, description)
  }

  /** `cleanOldData`: keep only the records stamped within the last seven days. */
  function CleanOldData(ledger: Ledger, now: int): (r: Ledger)
    ensures forall c :: c in r <==> c in ledger && c.timestamp > now - RetentionMs
    ensures |r| <= |ledger|
  {
    Filter(ledger, (c: ApiCall) => c.timestamp > now - RetentionMs)
  }

  /** Pruning again later prunes exactly what pruning once at the later time would: so pruning is idempotent. */
  lemma CleanOldDataAbsorbs(ledger: Ledger, t1: int, t2: int)
    requires t1 <= t2
    ensures CleanOldData(CleanOldData(ledger, t1), t2) == CleanOldData(ledger, t2)
  {
    FilterFilter(ledger, (c: ApiCall) => c.timestamp > t2 - RetentionMs, (c: ApiCall) => c.timestamp > t1 - RetentionMs,
                 (c: ApiCall) => c.timestamp > t2 - RetentionMs);
  }

  lemma CleanOldDataIdempotent(ledger: Ledger, now: int)
    ensures CleanOldData(CleanOldData(ledger, now), now) == CleanOldData(ledger, now)
  {
    CleanOldDataAbsorbs(ledger, now, now);
  }

  /**
   * Pruning works record by record and keeps the survivors in their original
   * order: it distributes over concatenation, and a single record survives
   * exactly when it is under seven days old.
   */
  lemma CleanOldDataInOrder(a: Ledger, b: Ledger, c: ApiCall, now: int)
    ensures CleanOldData(a + b, now) == CleanOldData(a, now) + CleanOldData(b, now)
    ensures CleanOldData([c], now) == if c.timestamp > now - RetentionMs then [c] else []
  {
    FilterAppend(a, b, (x: ApiCall) => x.timestamp > now - RetentionMs);
  }

  /** The tracker's construction: load the stored ledger (empty when absent or unreadable), then prune. */
  function InitialLedger(stored: Option<Ledger>, now: int): (r: Ledger)
    ensures forall c :: c in r <==> stored.Some? && c in stored.value && c.timestamp > now - RetentionMs
    ensures forall c :: c in r ==> c.timestamp > now - RetentionMs
    ensures stored.None? ==> r == []
  {
    CleanOldData(stored.GetOr([]), now)
  }

  /**
   * The loaded ledger is the stored one pruned record by record: its
   * survivors keep their stored order, and pruning it again at the same
   * instant changes nothing.
   */
  lemma InitialLedgerInOrder(a: Ledger, b: Ledger, now: int)
    ensures InitialLedger(Some(a + b), now) == InitialLedger(Some(a), now) + InitialLedger(Some(b), now)
    ensures CleanOldData(InitialLedger(Some(a), now), now) == InitialLedger(Some(a), now)
  {
    FilterAppend(a, b, (c: ApiCall) => c.timestamp > now - RetentionMs);
    CleanOldDataIdempotent(a, now);
  }

  /** `resetTodaysUsage`: drop today's records, keeping every other record in order. */
  function ResetTodaysUsage(ledger: Ledger, now: int): (r: Ledger)
    ensures forall c :: c in r <==> c in ledger && Day(c.timestamp) != Day(now)
  {
    Filter(ledger, (c: ApiCall) => Day(c.timestamp) != Day(now))
  }

  /** Resetting works record by record and keeps the other days' records in their original order. */
  lemma ResetInOrder(a: Ledger, b: Ledger, c: ApiCall, now: int)
    ensures ResetTodaysUsage(a + b, now) == ResetTodaysUsage(a, now) + ResetTodaysUsage(b, now)
    ensures ResetTodaysUsage([c], now) == if Day(c.timestamp) != Day(now) then [c] else []
  {
    FilterAppend(a, b, (x: ApiCall) => Day(x.timestamp) != Day(now));
  }

  /** Resetting and today's records split the ledger: each record lands on exactly one side. */
  lemma ResetPartitionsLedger(ledger: Ledger, now: int)
    ensures multiset(ResetTodaysUsage(ledger, now)) + multiset(TodaysCalls(ledger, now)) == multiset(ledger)
    ensures TodaysCalls(ResetTodaysUsage(ledger, now), now) == []
    ensures TotalCallsToday(ResetTodaysUsage(ledger, now), now) == 0
  {
    FilterPartition(ledger, (c: ApiCall) => Day(c.timestamp) != Day(now), (c: ApiCall) => Day(c.timestamp) == Day(now));
    FilterDropsAll(ResetTodaysUsage(ledger, now), (c: ApiCall) => Day(c.timestamp) == Day(now));
  }

  /** Quota units consumed on day `d`. */
  function DayTotal(ledger: Ledger, d: int): nat {
    SumCost(Filter(ledger, (c: ApiCall) => Day(c.timestamp) == d && !c.fromCache))
  }

  /** The history's entry for today agrees with today's statistics. */
  lemma DayTotalToday(ledger: Ledger, now: int)
    ensures DayTotal(ledger, Day(now)) == TotalCallsToday(ledger, now)
  {
    FilterFilter(ledger, (c: ApiCall) => !c.fromCache, (c: ApiCall) => Day(c.timestamp) == Day(now),
                 (c: ApiCall) => Day(c.timestamp) == Day(now) && !c.fromCache);
  }

  /** Resetting today leaves every other day's total untouched. */
  lemma ResetKeepsOtherDays(ledger: Ledger, now: int, d: int)
    requires d != Day(now)
    ensures DayTotal(ResetTodaysUsage(ledger, now), d) == DayTotal(ledger, d)
  {
    FilterFilter(ledger, (c: ApiCall) => Day(c.timestamp) == d && !c.fromCache, (c: ApiCall) => Day(c.timestamp) != Day(now),
                 (c: ApiCall) => Day(c.timestamp) == d && !c.fromCache);
  }

  /** Shifting an instant by whole days shifts its date by the same number of days. */
  lemma DayShift(t: int, n: int)
    ensures Day(t - n * MsPerDay) == Day(t) - n
  {
    DayOfInstant(t - n * MsPerDay, Day(t) - n);
  }

  /** Pruning at `now` removes nothing from the last seven days, today included. */
  lemma CleanKeepsHistory(ledger: Ledger, now: int, d: int)
    requires Day(now) - (HistoryDays - 1) <= d <= Day(now)
    ensures DayTotal(CleanOldData(ledger, now), d) == DayTotal(ledger, d)
  {
    var onDay := (c: ApiCall) => Day(c.timestamp) == d && !c.fromCache;
    var recent := (c: ApiCall) => c.timestamp > now - RetentionMs;
    forall c | c in ledger && onDay(c)
      ensures recent(c)
    {
      assert StartOfDay(Day(now) - (HistoryDays - 1)) <= StartOfDay(d) <= c.timestamp;
      assert now < StartOfDay(Day(now) + 1);
    }
    FilterFilter(ledger, onDay, recent, onDay);
  }

  /** Pruning at `now` leaves today's total unchanged. */
  lemma CleanKeepsToday(ledger: Ledger, now: int)
    ensures TotalCallsToday(CleanOldData(ledger, now), now) == TotalCallsToday(ledger, now)
  {
    CleanKeepsHistory(ledger, now, Day(now));
    DayTotalToday(ledger, now);
    DayTotalToday(CleanOldData(ledger, now), now);
  }

  datatype HistoryPoint = HistoryPoint(day: int, calls: nat)

  /** `getUsageHistory`: one point per day of the last seven, oldest first, today last. */
  method UsageHistory(ledger: Ledger, now: int) returns (h: seq<HistoryPoint>)
    ensures |h| == HistoryDays
    ensures h[HistoryDays - 1].day == Day(now)
    ensures forall k :: 0 <= k < |h| ==> h[k].day == Day(now) - (HistoryDays - 1) + k
    ensures forall k :: 0 <= k < |h| ==> h[k].calls == DayTotal(ledger, h[k].day)
  {
    h := [];
    var i: int := HistoryDays - 1;
    while i >= 0
      invariant -1 <= i <= HistoryDays - 1
      invariant |h| == HistoryDays - 1 - i
      invariant forall k :: 0 <= k < |h| ==> h[k].day == Day(now) - (HistoryDays - 1) + k
      invariant forall k :: 0 <= k < |h| ==> h[k].calls == DayTotal(ledger, h[k].day)
    {
      var date := now - i * MsPerDay;
      DayShift(now, i);
      var d := Day(date);
      h := h + [HistoryPoint(d, DayTotal(ledger, d))];
      i := i - 1;
    }
  }
}

=== FILE: wrappers.dfy ===
/** Optional values and success/failure results shared by every module of the model. */
module Wrappers {

  /** A value that may be absent (TypeScript's `T | undefined` / `T | null`). */
  datatype Option<+T> = None | Some(value: T) {

    /** The wrapped value, or `default` when absent. */
    function GetOr(default: T): T {
      match this
      case Some(v) => v
      case None => default
    }
  }

  /** The outcome of a step that may throw: a value, or the thrown error's message. */
  datatype Result<+R> = Success(value: R) | Failure(error: string)

  /** JavaScript truthiness of an optional string: present and non-empty. */
  predicate TruthyString(s: Option<string>) {
    s.Some? && s.value != ""
  }
}
